=== FILE: README.md ===
# Hexagonal Minesweeper board engine, in Dafny

This project models the board engine of a terminal Minesweeper played on a hexagonal grid
(`my/buscaminas/buscaminas.py` and `my/buscaminas/celda.py`) and proves properties of it.

The board is a rectangle of `filas` × `columnas` cells. Even rows are drawn half a cell to the right,
so every cell touches at most six others: its two horizontal neighbours, and two cells in each of
the rows above and below. Which two depends on the row's parity.

Each cell is closed or open, marked or not, and mined or not. It also stores
*minas por descubrir*: the number of neighbours with a mine minus the number of marked neighbours.
A player's submission is split into three-character tokens, each naming a row, a column and an
action (`!` toggles a mark, `*` opens a cell). Tokens are validated, applied and followed by a
full recount. Processing stops at the first rejected token or at the opening of a mined cell.

The project has five modules:

- `Topologia` (`topologia.dfy`) holds the neighbour case table of `calcular_minas_por_descubrir`.
  It is written out as found, compared with the row-parity adjacency relation, and corrected at the
  one corner where it disagrees (see Findings). The recount runs on the corrected lists. Its
  exact difference from the case table as written is proved (`Reglas.CuentaComoEscritoEnEsquina`)
  and listed under Left out.
- `Celdas` (`celda.dfy`) holds the `Celda` class, whose fields are updated in place, and
  `EstadoCelda`, a value snapshot of those fields.
- `Jugadas` (`jugadas.dfy`) holds:
  - the row and column name tables and their reverse lookups (`DIC_FILAS`, `DIC_COLUMNAS`);
  - `dividir_en_subjugadas` as a loop proved equal to a chunking function;
  - the token syntax check of `validar_jugada` as a decoder, with its encode/decode round trips.
- `Reglas` (`reglas.dfy`) is the engine on values. It covers:
  - the recount, defined as the same row-by-row walk the source performs;
  - the validation verdicts;
  - the effect of one action;
  - the processing of a whole submission;
  - the character each cell shows.
- `Buscaminas` (`tablero.dfy`) holds the `Tablero` class: a grid of `Celda` objects and the
  marked-cell counter.
  - Every method is proved against `Reglas`: the snapshot of all cells after the call is the
    function of the snapshot before it that the rules prescribe.
  - `Jugar`, the token loop of `jugar`, ends in exactly the state `Reglas.Procesar` computes.

The program's own description of the game is the module docstring of `buscaminas.py`
(`my/buscaminas/buscaminas.py:3-113`). Where that description and the code disagree, the model
follows the code, except at the top-right corner (0, columnas-1); see Findings and Left out.

- The docstring says that opening a cell with no mines left to find also opens its closed,
  unmarked neighbours recursively (lines 76-78 and 92-93). The code has no such cascade:
  `abrir_recursivamente` is an empty stub, and the branch calling it cannot be reached.
- The docstring announces a win once every cell is open or marked and the marks equal the mines
  (lines 102-106). The code has no win check.
- The docstring says opening a cell changes its state (line 89). Opening a mined cell ends the
  game but leaves that cell closed.
- The docstring says that marking a marked cell removes the mark (lines 74-75). The model keeps
  `validar_jugada` as written here. With as many marks as mines, a `!` token is rejected even on a
  marked cell, so that unmark is refused too (`DemasiadasMarcas`).

## Model

| member | source | states |
|---|---|---|
| Topologia.VecinasComoEscrito | my/buscaminas/buscaminas.py:229-622 | The case table exactly as written, in the source's order. Each list has 2 to 6 distinct entries, all on the board and none equal to the cell itself. |
| Topologia.Vecinas | my/buscaminas/buscaminas.py:229-622 | Lists 2 to 6 distinct neighbours of a cell, all on the board and none equal to the cell itself. An interior cell has exactly 6. |
| Topologia.VecinasSonAdyacentes | my/buscaminas/buscaminas.py:229-622 | A position is listed for (i, j) exactly when it is hex-adjacent to (i, j) under the row-parity rule, in both directions of the equivalence. |
| Topologia.VecinasSimetricas | my/buscaminas/buscaminas.py:229-622 | The neighbour relation is symmetric: q is listed for p exactly when p is listed for q. |
| Topologia.ComoEscritoDifiereEnEsquina | my/buscaminas/buscaminas.py:229-622 | The case table as written gives the corrected list at every cell except the top-right corner, where it adds exactly one extra entry, (1, columnas-2). |
| Topologia.ComoEscritoNoSimetrico | my/buscaminas/buscaminas.py:252-271 | For every board, the as-written top-right corner lists (1, columnas-2), which is not adjacent to it and does not list the corner back. |
| Celdas.Celda.constructor | my/buscaminas/celda.py:5-10 | A new cell is closed, unmarked and mine-free, with a zero count and no cached neighbours, and it records its row and column. |
| Celdas.Celda.IsAbierta | my/buscaminas/celda.py:12-18 | Returns the open flag. |
| Celdas.Celda.IsMarcada | my/buscaminas/celda.py:20-26 | Returns the mark flag. |
| Celdas.Celda.HayMina | my/buscaminas/celda.py:28-34 | Returns the mine flag. |
| Celdas.Celda.PonerMina | my/buscaminas/celda.py:36-37 | Sets the mine flag and changes nothing else. On a mined cell it changes nothing, so the call is idempotent. |
| Celdas.Celda.GetFila | my/buscaminas/celda.py:39-40 | Returns the recorded row. |
| Celdas.Celda.GetColumna | my/buscaminas/celda.py:42-43 | Returns the recorded column. |
| Celdas.Celda.Marcar | my/buscaminas/buscaminas.py:834 | Flips the mark flag and changes nothing else. |
| Celdas.Celda.Abrir | my/buscaminas/buscaminas.py:838 | Sets the open flag and changes nothing else. Opening an open cell is a no-op. |
| Celdas.Celda.SetMinasPorDescubrir | my/buscaminas/buscaminas.py:626 | Replaces the stored count and changes nothing else. |
| Celdas.Celda.AddVecina | my/buscaminas/buscaminas.py:248-250 | Appends one neighbour to the cached list and changes nothing else. |
| Celdas.Celda.GetCeldasVecinas | my/buscaminas/buscaminas.py:247 | Returns the cached neighbour list. |
| Celdas.Celda.GetMinasPorDescubrir | my/buscaminas/buscaminas.py:700-705 | Returns the stored count. |
| Jugadas.Indice | my/buscaminas/buscaminas.py:126-127 | The dictionary lookup returns nothing exactly when the character is not a name. Otherwise it returns the first, and therefore only, position holding that character. |
| Jugadas.NombresSinRepetidos | my/buscaminas/buscaminas.py:122-123 | Neither name table repeats a character, so the lookup dictionaries are inverses of the tables. |
| Jugadas.DecodificarCon | my/buscaminas/buscaminas.py:799-805 | A token is decoded exactly when it passes the syntax check of `validar_jugada`. The decoded cell lies on the board, and its names are the token's first two characters. |
| Jugadas.Decodificar | my/buscaminas/buscaminas.py:799-805 | The same as DecodificarCon, for the program's own name tables. |
| Jugadas.DecodificarCodificar | my/buscaminas/buscaminas.py:799-805 | Decoding the token written for any action on the board gives that action back. |
| Jugadas.CodificarDecodificar | my/buscaminas/buscaminas.py:799-805 | The first three characters of every accepted token are the token written for what it decodes to. |
| Jugadas.TrozosPropiedades | my/buscaminas/buscaminas.py:756-787 | Joining the chunks gives back the submission. Every chunk but the last has three characters, and the last has one to three. There are no chunks exactly when the submission is empty. |
| Jugadas.TrozosIndices | my/buscaminas/buscaminas.py:756-787 | There are ⌈n/3⌉ chunks, and chunk k is the slice starting at 3k, cut at the end of the input. |
| Jugadas.DividirEnSubjugadas | my/buscaminas/buscaminas.py:756-787 | The accumulate-then-pop loops return exactly the chunking of the submission. |
| Reglas.HayCeldaSin | my/buscaminas/buscaminas.py:205-211 | While fewer cells hold a mine than the board has, some cell holds none, so the placement loop can always make progress. |
| Reglas.SoloMinasNuevasPaso | my/buscaminas/buscaminas.py:209-211 | Putting a mine on one more cell keeps the grid equal to the starting grid except for added mines. |
| Reglas.ContarActualizar | my/buscaminas/buscaminas.py:833-838 | Changing one cell changes the number of marked (or mined) cells by exactly that cell's change. |
| Reglas.ParcialEnCelda | my/buscaminas/buscaminas.py:226-629 | Part-way through the row-by-row walk with a per-cell recount f, each visited cell holds f of its position, and each cell not yet visited is untouched. |
| Reglas.CuentaComoEscritoEnEsquina | my/buscaminas/buscaminas.py:252-271 | The count the case table as written yields equals the stored count at every cell but the top-right corner. There it also adds the mine, and subtracts the mark, of (1, columnas-2). |
| Reglas.EsquinaDosPorDos | my/buscaminas/buscaminas.py:252-271 | On a 2×2 board with one mine at (1, 0), the as-written count at (0, 1) is 1 and the model's is 0, so the opened cell shows " " here where the program shows "1". |
| Reglas.RecuentoEsRecuento | my/buscaminas/buscaminas.py:624-629 | The per-position recount used by the walk is defined on every cell, equals that cell's recount, and keeps the cell's flags. |
| Reglas.Recalcular | my/buscaminas/buscaminas.py:216-629 | The recount, over the corrected neighbour lists, keeps the grid's shape and leaves every cell's open, mark and mine flags unchanged. |
| Reglas.RecalcularEnCelda | my/buscaminas/buscaminas.py:226-629 | After the whole walk, each cell holds its own recount over the corrected neighbour list, computed from the grid as it was before the walk. |
| Reglas.RecalcularCuenta | my/buscaminas/buscaminas.py:624-629 | A cell's new count is (adjacent mined cells) minus (adjacent marked cells) under the row-parity adjacency relation, which is what the case table counts everywhere but the top-right corner. The count lies in [-6, 6]. The corrected neighbour list is filled in only when the cache was empty. |
| Reglas.CuentaVecinasBanderas | my/buscaminas/buscaminas.py:229-622 | A cell's count depends only on the mine and mark flags of its listed neighbours: two grids that agree on those flags there give the same count, whatever else differs. |
| Reglas.RecalcularIdempotente | my/buscaminas/buscaminas.py:216-629 | Recounting a recounted grid changes nothing. |
| Reglas.RecalcularAlDia | my/buscaminas/buscaminas.py:216-629 | After a recount, every stored count agrees with the grid's current flags. |
| Reglas.ValidarJugada | my/buscaminas/buscaminas.py:799-825 | Gives each rejection in the source's order, naming which one. A token is rejected as malformed or off-board exactly when the syntax check fails. '!' is rejected for too many marks when one more would exceed the mines, and otherwise for marking an open cell. '*' is rejected for opening a marked cell, and otherwise for too few marks on an open cell with a positive count. An accepted token is its decoded action and meets all of these conditions. |
| Reglas.ValidarCodificada | my/buscaminas/buscaminas.py:799-825 | Every action that meets the legality conditions is accepted, written as a token, as that same action. |
| Reglas.Aplicar | my/buscaminas/buscaminas.py:828-845 | '!' flips only the named cell's mark and moves the counter by one. '*' on a mine-free cell opens only that cell. '*' on a mined cell ends the game with nothing changed. The counter stays equal to the number of marked cells, and the number of mines is unchanged. |
| Reglas.MarcarDosVeces | my/buscaminas/buscaminas.py:833-834 | Marking the same cell twice restores both the grid and the counter. |
| Reglas.Paso | my/buscaminas/buscaminas.py:169-170 | After one action and its recount, the counts are current. The game ends exactly when a mined cell was opened. The counter stays coherent, and the number of mines is unchanged. |
| Reglas.Procesar | my/buscaminas/buscaminas.py:163-173 | Processing ends in one of three ways: an error after some applied tokens, the end of the game after at least one, or all tokens applied. Never both an error and the end. The counter stays coherent and within the mine count. The mines are unchanged, and the counts are current once anything was applied. |
| Reglas.ProcesarIgnoraResto | my/buscaminas/buscaminas.py:166-173 | Once processing has stopped, tokens appended after the stopping point are ignored. |
| Reglas.ProcesarEnSecuencia | my/buscaminas/buscaminas.py:163-173 | Processing a submission that runs to its end and then more tokens equals processing the two parts one after the other. |
| Reglas.ProcesarPrefijoInvalido | my/buscaminas/buscaminas.py:164-167 | If the token after a clean prefix is rejected, the whole submission stops there with that token's error. |
| Reglas.ProcesarPrefijoFin | my/buscaminas/buscaminas.py:169-173 | If the token after a clean prefix ends the game, the whole submission stops right after it. |
| Reglas.ProcesarPrefijoSigue | my/buscaminas/buscaminas.py:164-173 | If the token after a clean prefix is accepted and does not end the game, the prefix extends cleanly by one. |
| Reglas.Decimal | my/buscaminas/buscaminas.py:704-705 | The decimal string of a natural number spells that number: its digits, read most significant first, have value n. It is non-empty and has no leading zero except for 0 itself, and it is one character exactly for values below 10. |
| Reglas.GetCaracterAImprimir | my/buscaminas/buscaminas.py:688-709 | A closed cell shows the shading block, or "X" when marked. An open cell shows " " for count 0, "?" for a negative count, and its digits for a positive one. "#" and "*" are never produced. |
| Buscaminas.Tablero.CrearCeldas | my/buscaminas/buscaminas.py:194-202 | Builds filas rows of columnas fresh cells. Each is new and records its own position. |
| Buscaminas.Tablero.constructor | my/buscaminas/buscaminas.py:185-213 | Builds a well-formed board with no marks and exactly `minas` mined cells, every cell closed, unmarked and with a zero count. |
| Buscaminas.Tablero.ElegirCeldaSinMina | my/buscaminas/buscaminas.py:205-209 | The draw returns a cell on the board that holds no mine. |
| Buscaminas.Tablero.PonerMinaEn | my/buscaminas/buscaminas.py:209-211 | Only the chosen cell changes (it gains a mine), and the mine count rises by one. |
| Buscaminas.Tablero.PonerMinas | my/buscaminas/buscaminas.py:205-211 | The loop places exactly `minas` more mines, changing nothing else and removing no mine. |
| Buscaminas.Tablero.ContarVecinas | my/buscaminas/buscaminas.py:229-622 | The two counters of one cell's step equal the number of neighbours on the corrected list with a mine and the number marked. |
| Buscaminas.Tablero.AgregarVecinas | my/buscaminas/buscaminas.py:247-250 | The cell's neighbour list grows by exactly the listed positions, in order. |
| Buscaminas.Tablero.CalcularCelda | my/buscaminas/buscaminas.py:229-629 | One step of the walk leaves the cell equal to its recount over the corrected neighbour list. |
| Buscaminas.Tablero.CalcularSiguiente | my/buscaminas/buscaminas.py:226-629 | After one more cell, the cells equal the walk one step further. |
| Buscaminas.Tablero.CalcularFila | my/buscaminas/buscaminas.py:227-629 | After one row, the cells equal the walk one row further. |
| Buscaminas.Tablero.RecorrerFilas | my/buscaminas/buscaminas.py:226-629 | After all rows, every cell equals the whole walk for the given per-cell recount. |
| Buscaminas.Tablero.RecalcularCeldas | my/buscaminas/buscaminas.py:216-629 | After the walk, every cell equals the recount, over the corrected neighbour lists, of the grid the walk started from. |
| Buscaminas.Tablero.CalcularMinasPorDescubrir | my/buscaminas/buscaminas.py:216-629 | The board's snapshot becomes Reglas.Recalcular of the old one (corrected neighbour lists), and the counter is unchanged. |
| Buscaminas.Tablero.MarcarCelda | my/buscaminas/buscaminas.py:833-834 | Flips the named cell's mark and nothing else. The counter goes down by one on unmarking and up by one on marking. |
| Buscaminas.Tablero.AbrirCelda | my/buscaminas/buscaminas.py:836-838 | Opens the named cell and nothing else. |
| Buscaminas.Tablero.HacerJugada | my/buscaminas/buscaminas.py:828-845 | The new snapshot, counter and game-over flag are exactly Reglas.Aplicar of the old state and the decoded action. |
| Buscaminas.Tablero.JugarSubjugada | my/buscaminas/buscaminas.py:164-173 | A rejected token leaves the board as it was and reports its error. An accepted one moves the board to Reglas.Paso of the old state. |
| Buscaminas.Tablero.Jugar | my/buscaminas/buscaminas.py:160-173 | After a submission, the board, the counter, the game-over flag and the error are exactly what Reglas.Procesar computes for its chunks. |
| Buscaminas.NuevaPartida | my/buscaminas/buscaminas.py:143-151 | A new game has `minas` mines, no marks and no open cell, and every count is current. |

## Left out

- The menu loop, `raw_input` prompts and every `print` are I/O and are not modelled. Validation
  messages become values of `Reglas.ErrorJugada`.
- `imprimir_tablero` (terminal drawing) and the elapsed-time display are not modelled. Only the
  per-cell character (`get_caracter_a_imprimir`) is.
- `leer_tablero` (reading a board from a file) is file I/O and is not modelled. The `leer_fichero`
  branch of `jugar` is therefore absent.
- Buscaminas.Tablero.ElegirCeldaSinMina: `random.randint` is replaced by a choice of some cell
  without a mine. Draws that hit a mined cell and are retried are not modelled, and nor is which
  cell is drawn.
- Buscaminas.Tablero.constructor: requires `minas <= filas * columnas`. With more mines the source's
  placement loop never ends.
- The cascading reveal is not modelled: `abrir_recursivamente` is an empty stub, and the branch of
  `hacer_jugada` that calls it is unreachable.
- Win detection does not exist in the code and is not modelled.
- The marked-cell counter is a class-level counter of `Celda` in the source (`get_celdas_marcadas`).
  Here it is the field `marcadas` of the board, starting at 0 for each new board.
- `marcar`, `abrir`, `set_minas_por_descubrir`, `add_vecina`, `get_celdas_vecinas`,
  `get_minas_por_descubrir` and `get_celdas_marcadas` are called from `buscaminas.py` but are not in
  `celda.py`. Their behaviour is taken from how they are called.
- Cached neighbours are (row, column) pairs instead of references to other `Celda` objects.
- Reglas.Recalcular: counts and caches over the corrected neighbour lists (Topologia.Vecinas), not over the
  case table as written. At the top-right corner (0, columnas-1) the source also counts and caches
  (1, columnas-2). Everywhere else the two agree. Reglas.CuentaComoEscritoEnEsquina gives the exact difference.
- Reglas.RecalcularEnCelda: the per-cell recount it yields uses the corrected list, so at (0, columnas-1) the
  count lacks the mine-minus-mark term of (1, columnas-2), and the cache lacks that entry.
- Reglas.RecalcularCuenta: states the row-parity adjacency count. At (0, columnas-1) the source's count has
  the extra (1, columnas-2) term.
- Buscaminas.Tablero.ContarVecinas: counts over the corrected list, so at (0, columnas-1) it does not
  count (1, columnas-2) as the source does.
- Buscaminas.Tablero.CalcularCelda: at (0, columnas-1) it stores the corrected count and caches two
  neighbours where the source caches three.
- Buscaminas.Tablero.RecalcularCeldas: ends in the corrected recount, which differs from the source only
  at (0, columnas-1).
- Buscaminas.Tablero.CalcularMinasPorDescubrir: the new snapshot is the corrected recount, so the count
  and cache at (0, columnas-1) differ from the source whenever (1, columnas-2) is mined or marked.
- Reglas.Paso: ends in the corrected recount, so after a step the count and cache at (0, columnas-1)
  differ from the source whenever (1, columnas-2) is mined or marked. The character shown there then
  differs too (Reglas.EsquinaDosPorDos).
- Reglas.Procesar: each step ends in the corrected recount. When the two counts differ at
  (0, columnas-1), the `MarcasInsuficientes` verdict of a later `*` on that open cell can differ, so a
  submission the program stops at such a token can go on in the model.
- Buscaminas.Tablero.JugarSubjugada: an accepted token ends in Reglas.Paso and inherits its corner
  difference.
- Buscaminas.Tablero.Jugar: ends in Reglas.Procesar and inherits its corner difference.
- Buscaminas.NuevaPartida: its first recount is the corrected one, so the count and cache at
  (0, columnas-1) differ from the source whenever (1, columnas-2) is mined.
- Reglas.Recalcular and the recount methods require at least two rows and two columns. On a
  one-row or one-column board the source's case table indexes outside the grid.

## Findings

| source | as written | input that shows it | evidently intended | confidence | as-written member | corrected member |
|---|---|---|---|---|---|---|
| my/buscaminas/buscaminas.py:252-271 | The top-right corner (0, columnas-1) counts and caches (0, columnas-2), (1, columnas-1) and (1, columnas-2). | Any board of at least 2×2, cell (0, columnas-1). Row 0 is even, so (1, columnas-2) is not adjacent to it, and (1, columnas-2) does not list the corner back. On a 2×2 board with a mine at (1, 0), the opened (0, 1) shows "1" with no mined neighbour (Reglas.EsquinaDosPorDos). | The even-row rule used everywhere else: only (0, columnas-2) and (1, columnas-1). | not executed | Topologia.ComoEscritoNoSimetrico | Topologia.VecinasSimetricas |

=== FILE: celda.dfy ===
/**
 * One cell of the board: whether it is open, marked and mined, where it
 * sits, how many mines remain to be discovered around it, and the cached
 * list of its neighbours (as index pairs rather than object references).
 */
module Celdas {

  /** A value snapshot of everything a cell holds apart from its position. */
  datatype EstadoCelda = EstadoCelda(
    abierta: bool,
    marcada: bool,
    mina: bool,
    minasPorDescubrir: int,
    vecinas: seq<(int, int)>)

  /** The state of a freshly built cell. */
  const NUEVA: EstadoCelda := EstadoCelda(false, false, false, 0, [])

  class Celda {
    var abierta: bool
    var marcada: bool
    var hayMina: bool
    const fila: int
    const columna: int
    var minasPorDescubrir: int
    var vecinas: seq<(int, int)>

    function Estado(): EstadoCelda
      reads this
    {
      EstadoCelda(abierta, marcada, hayMina, minasPorDescubrir, vecinas)
    }

    /** A new cell is closed, unmarked and mine-free, and records its position. */
    constructor (fila: int, columna: int)
      ensures Estado() == NUEVA
      ensures this.fila == fila && this.columna == columna
    {
      abierta := false;
      marcada := false;
      hayMina := false;
      this.fila := fila;
      this.columna := columna;
      minasPorDescubrir := 0;
      vecinas := [];
    }

    method IsAbierta() returns (r: bool)
      ensures r == abierta
    {
      r := abierta;
    }

    method IsMarcada() returns (r: bool)
      ensures r == marcada
    {
      r := marcada;
    }

    method HayMina() returns (r: bool)
      ensures r == hayMina
    {
      r := hayMina;
    }

    method GetFila() returns (r: int)
      ensures r == fila
    {
      r := fila;
    }

    method GetColumna() returns (r: int)
      ensures r == columna
    {
      r := columna;
    }

    method GetMinasPorDescubrir() returns (r: int)
      ensures r == minasPorDescubrir
    {
      r := minasPorDescubrir;
    }

    method GetCeldasVecinas() returns (r: seq<(int, int)>)
      ensures r == vecinas
    {
      r := vecinas;
    }

    /**
     * Sets the mine flag and nothing else; on a cell that already holds a
     * mine it changes nothing, so calling it twice is calling it once.
     */
    method PonerMina()
      modifies this
      ensures Estado() == old(Estado()).(mina := true)
      ensures old(hayMina) ==> Estado() == old(Estado())
    {
      hayMina := true;
    }

    /** Toggles the mark; the mine flag is never cleared. */
    method Marcar()
      modifies this
      ensures Estado() == old(Estado()).(marcada := !old(marcada))
    {
      marcada := !marcada;
    }

    /** Opens the cell; opening an open cell changes nothing. */
    method Abrir()
      modifies this
      ensures Estado() == old(Estado()).(abierta := true)
      ensures old(abierta) ==> Estado() == old(Estado())
    {
      abierta := true;
    }

    method SetMinasPorDescubrir(n: int)
      modifies this
      ensures Estado() == old(Estado()).(minasPorDescubrir := n)
    {
      minasPorDescubrir := n;
    }

    method AddVecina(p: (int, int))
      modifies this
      ensures Estado() == old(Estado()).(vecinas := old(vecinas) + [p])
    {
      vecinas := vecinas + [p];
    }
  }
}

=== FILE: jugadas.dfy ===
/**
 * Player input: the row and column name tables, their reverse lookups, the
 * splitting of one submission into three-character action tokens, and the
 * decoding of a token into a cell and an action.
 */
module Jugadas {

  datatype Option<T> = None | Some(value: T)

  /** Action characters: '!' marks or unmarks, '*' opens. */
  const ACCIONES: string := "!*"

  const NOMBRE_FILAS: string := "ABCDEFGHIJKLMNOPQRSTUVWXYZ@#$%&"
  const NOMBRE_COLUMNAS: string := "abcdefghijklmnopqrstuvwxyz=+-:/"

  datatype Accion = Marcar | Abrir

  /** One decoded action on the cell at (fila, columna). */
  datatype Jugada = Jugada(fila: nat, columna: nat, accion: Accion)

  predicate SinRepetidos(s: string)
  {
    forall a, b | 0 <= a < b < |s| :: s[a] != s[b]
  }

  /**
   * Position of `c` in `nombres`, or None: the `DIC_FILAS.get` /
   * `DIC_COLUMNAS.get` lookup. The tables hold no repeated character, so
   * the first position is the only one.
   */
  function Indice(nombres: string, c: char): (r: Option<nat>)
    ensures r.None? <==> c !in nombres
    ensures r.Some? ==> r.value < |nombres| && nombres[r.value] == c
    ensures r.Some? ==> forall k | 0 <= k < r.value :: nombres[k] != c
  {
    if nombres == [] then None
    else if nombres[0] == c then Some(0)
    else match Indice(nombres[1..], c)
      case None => None
      case Some(k) => Some(k + 1)
  }

  function DicFilas(c: char): Option<nat>
  {
    Indice(NOMBRE_FILAS, c)
  }

  function DicColumnas(c: char): Option<nat>
  {
    Indice(NOMBRE_COLUMNAS, c)
  }

  /** The first `n` names, as Python's slice `nombres[:n]` (the whole table when n is larger). */
  function Primeros(nombres: string, n: int): (r: string)
  {
    if n <= 0 then [] else if n <= |nombres| then nombres[..n] else nombres
  }

  /**
   * The syntactic check of `validar_jugada` against name tables `nf` (rows)
   * and `nc` (columns): at least three characters, a row name among the
   * first `filas`, a column name among the first `columnas`, and an action
   * character.
   */
  predicate TokenBienFormadoCon(nf: string, nc: string, jugada: string, filas: int, columnas: int)
  {
    && |jugada| >= 3
    && jugada[0] in Primeros(nf, filas)
    && jugada[1] in Primeros(nc, columnas)
    && jugada[2] in ACCIONES
  }

  /** The lookups `hacer_jugada` performs on a well-formed token, against name tables `nf` and `nc`. */
  function DecodificarCon(nf: string, nc: string, jugada: string, filas: int, columnas: int): (r: Option<Jugada>)
    ensures r.Some? <==> TokenBienFormadoCon(nf, nc, jugada, filas, columnas)
    ensures r.Some? ==> r.value.fila < filas && r.value.columna < columnas
    ensures r.Some? ==> r.value.fila < |nf| && r.value.columna < |nc|
    ensures r.Some? ==> nf[r.value.fila] == jugada[0] && nc[r.value.columna] == jugada[1]
    ensures r.Some? ==> (r.value.accion == Marcar <==> jugada[2] == '!')
  {
    if !TokenBienFormadoCon(nf, nc, jugada, filas, columnas) then None
    else
      NombreDecodificado(nf, jugada[0], filas);
      NombreDecodificado(nc, jugada[1], columnas);
      var f := Indice(nf, jugada[0]).value;
      var c := Indice(nc, jugada[1]).value;
      Some(Jugada(f, c, if jugada[2] == '!' then Marcar else Abrir))
  }

  /** The three characters that name an action, against name tables `nf` and `nc`. */
  function CodificarCon(nf: string, nc: string, j: Jugada): (r: string)
    requires j.fila < |nf| && j.columna < |nc|
    ensures |r| == 3
  {
    [nf[j.fila], nc[j.columna], if j.accion == Marcar then '!' else '*']
  }

  /** A name among the first n names of a table is found in the table, within the first n, at a position that names it. */
  lemma NombreDecodificado(nombres: string, c: char, n: int)
    requires c in Primeros(nombres, n)
    ensures Indice(nombres, c).Some? && Indice(nombres, c).value < n && nombres[Indice(nombres, c).value] == c
  {
    if n < |nombres| {
      var k :| 0 <= k < n && nombres[..n][k] == c;
      assert nombres[k] == c;
    }
  }

  lemma EnPrimeros(nombres: string, n: int, k: nat)
    requires k < n && k < |nombres|
    ensures nombres[k] in Primeros(nombres, n)
  {
    assert Primeros(nombres, n)[k] == nombres[k];
  }

  /** Decoding an encoded action gives it back, for any tables without repeated names. */
  lemma DecodificarCodificarCon(nf: string, nc: string, j: Jugada, filas: int, columnas: int)
    requires SinRepetidos(nf) && SinRepetidos(nc)
    requires j.fila < filas && j.columna < columnas
    requires j.fila < |nf| && j.columna < |nc|
    ensures DecodificarCon(nf, nc, CodificarCon(nf, nc, j), filas, columnas) == Some(j)
  {
    IndiceDeNombre(nf, j.fila);
    IndiceDeNombre(nc, j.columna);
    EnPrimeros(nf, filas, j.fila);
    EnPrimeros(nc, columnas, j.columna);
  }

  /** A decoded token is the encoding of what it decodes to (plus any extra characters), for any tables. */
  lemma CodificarDecodificarCon(nf: string, nc: string, jugada: string, filas: int, columnas: int)
    requires DecodificarCon(nf, nc, jugada, filas, columnas).Some?
    ensures CodificarCon(nf, nc, DecodificarCon(nf, nc, jugada, filas, columnas).value) == jugada[..3]
  {
    var t := CodificarCon(nf, nc, DecodificarCon(nf, nc, jugada, filas, columnas).value);
    assert t[2] == jugada[2];
    assert jugada[..3] == [jugada[0], jugada[1], jugada[2]];
  }

  /** The game's own check: against NOMBRE_FILAS and NOMBRE_COLUMNAS. */
  predicate TokenBienFormado(jugada: string, filas: int, columnas: int)
  {
    TokenBienFormadoCon(NOMBRE_FILAS, NOMBRE_COLUMNAS, jugada, filas, columnas)
  }

  function Decodificar(jugada: string, filas: int, columnas: int): (r: Option<Jugada>)
    ensures r.Some? <==> TokenBienFormado(jugada, filas, columnas)
    ensures r.Some? ==> r.value.fila < filas && r.value.columna < columnas
    ensures r.Some? ==> r.value.fila < |NOMBRE_FILAS| && r.value.columna < |NOMBRE_COLUMNAS|
    ensures r.Some? ==> (r.value.accion == Marcar <==> jugada[2] == '!')
  {
    DecodificarCon(NOMBRE_FILAS, NOMBRE_COLUMNAS, jugada, filas, columnas)
  }

  function Codificar(j: Jugada): (r: string)
    requires j.fila < |NOMBRE_FILAS| && j.columna < |NOMBRE_COLUMNAS|
    ensures |r| == 3
  {
    CodificarCon(NOMBRE_FILAS, NOMBRE_COLUMNAS, j)
  }

  lemma {:induction false} IndiceDeNombre(nombres: string, k: nat)
    requires SinRepetidos(nombres) && k < |nombres|
    ensures Indice(nombres, nombres[k]) == Some(k)
  {
    if k > 0 {
      assert nombres[0] != nombres[k];
      assert SinRepetidos(nombres[1..]) by {
        forall a, b | 0 <= a < b < |nombres[1..]| ensures nombres[1..][a] != nombres[1..][b] {
          assert nombres[1..][a] == nombres[a + 1] && nombres[1..][b] == nombres[b + 1];
        }
      }
      IndiceDeNombre(nombres[1..], k - 1);
      assert nombres[1..][k - 1] == nombres[k];
    }
  }

  /** Characters that increase from each one to the next increase throughout. */
  lemma {:induction false} Creciente(s: string)
    requires forall k | 0 <= k < |s| - 1 :: s[k] < s[k + 1]
    ensures forall a, b | 0 <= a < b < |s| :: s[a] < s[b]
  {
    if |s| > 1 {
      var t := s[1..];
      forall k | 0 <= k < |t| - 1 ensures t[k] < t[k + 1] {
        assert t[k] == s[k + 1] && t[k + 1] == s[k + 2];
      }
      Creciente(t);
      forall a, b | 0 <= a < b < |s| ensures s[a] < s[b] {
        if a == 0 {
          if b > 1 {
            assert t[0] < t[b - 1];
          }
        } else {
          assert t[a - 1] < t[b - 1];
        }
      }
    }
  }

  /**
   * A run of increasing letters from `primera` to `ultima`, followed by
   * symbols without repetition that all sort below `primera`, has no repetition.
   */
  lemma LetrasYSimbolos(letras: string, simbolos: string, primera: char, ultima: char)
    requires letras != [] && letras[0] == primera && letras[|letras| - 1] == ultima
    requires forall k | 0 <= k < |letras| - 1 :: letras[k] < letras[k + 1]
    requires SinRepetidos(simbolos) && forall k | 0 <= k < |simbolos| :: simbolos[k] < primera
    ensures SinRepetidos(letras + simbolos)
  {
    Creciente(letras);
    var s := letras + simbolos;
    forall a, b | 0 <= a < b < |s| ensures s[a] != s[b] {
      if b < |letras| {
        assert s[a] < s[b];
      } else if a < |letras| {
        assert primera <= s[a] by {
          if a > 0 {
            assert letras[0] < letras[a];
          }
        }
        assert s[b] == simbolos[b - |letras|];
      } else {
        assert s[a] == simbolos[a - |letras|] && s[b] == simbolos[b - |letras|];
      }
    }
  }

  lemma NombresSinRepetidos()
    ensures SinRepetidos(NOMBRE_FILAS) && SinRepetidos(NOMBRE_COLUMNAS)
  {
    var mayusculas := "ABCDEFGHIJKLMNOPQRSTUVWXYZ";
    var minusculas := "abcdefghijklmnopqrstuvwxyz";
    assert NOMBRE_FILAS == mayusculas + "@#$%&";
    assert NOMBRE_COLUMNAS == minusculas + "=+-:/";
    LetrasYSimbolos(mayusculas, "@#$%&", 'A', 'Z');
    LetrasYSimbolos(minusculas, "=+-:/", 'a', 'z');
  }

  /** Decoding an encoded action on the board gives it back. */
  lemma DecodificarCodificar(j: Jugada, filas: int, columnas: int)
    requires j.fila < filas && j.columna < columnas
    requires j.fila < |NOMBRE_FILAS| && j.columna < |NOMBRE_COLUMNAS|
    ensures Decodificar(Codificar(j), filas, columnas) == Some(j)
  {
    NombresSinRepetidos();
    DecodificarCodificarCon(NOMBRE_FILAS, NOMBRE_COLUMNAS, j, filas, columnas);
  }

  /** A decoded token is the encoding of what it decodes to (plus any extra characters). */
  lemma CodificarDecodificar(jugada: string, filas: int, columnas: int)
    requires Decodificar(jugada, filas, columnas).Some?
    ensures Codificar(Decodificar(jugada, filas, columnas).value) == jugada[..3]
  {
    CodificarDecodificarCon(NOMBRE_FILAS, NOMBRE_COLUMNAS, jugada, filas, columnas);
  }

  /** The chunks of a submission: three characters each, the rest last. */
  function Trozos(s: string): (r: seq<string>)
    decreases |s|
  {
    if s == [] then []
    else if |s| <= 3 then [s]
    else [s[..3]] + Trozos(s[3..])
  }

  function Concatenar(ts: seq<string>): string
  {
    if ts == [] then [] else ts[0] + Concatenar(ts[1..])
  }

  /**
   * Chunking loses nothing, and every chunk but the last has three
   * characters while the last has one to three; an empty submission has none.
   */
  lemma {:induction false} TrozosPropiedades(s: string)
    ensures Concatenar(Trozos(s)) == s
    ensures forall k | 0 <= k < |Trozos(s)| - 1 :: |Trozos(s)[k]| == 3
    ensures Trozos(s) != [] ==> 1 <= |Trozos(s)[|Trozos(s)| - 1]| <= 3
    ensures Trozos(s) == [] <==> s == []
    decreases |s|
  {
    if |s| > 3 {
      TrozosPropiedades(s[3..]);
      assert s[..3] + s[3..] == s;
    }
  }

  /** Index form of the chunking: chunk k is s[3k .. min(3k+3, |s|)]. */
  lemma {:induction false} TrozosIndices(s: string)
    ensures |Trozos(s)| == (|s| + 2) / 3
    ensures forall k | 0 <= k < |Trozos(s)| ::
              3 * k < |s| && Trozos(s)[k] == s[3 * k .. if 3 * k + 3 <= |s| then 3 * k + 3 else |s|]
    decreases |s|
  {
    if |s| > 3 {
      var r := Trozos(s[3..]);
      TrozosIndices(s[3..]);
      forall k | 1 <= k < |Trozos(s)|
        ensures 3 * k < |s| && Trozos(s)[k] == s[3 * k .. if 3 * k + 3 <= |s| then 3 * k + 3 else |s|]
      {
        var t := s[3..];
        var fin := if 3 * (k - 1) + 3 <= |t| then 3 * (k - 1) + 3 else |t|;
        assert 3 * (k - 1) < |t| && r[k - 1] == t[3 * (k - 1) .. fin];
        assert t[3 * (k - 1) .. fin] == s[3 * k .. 3 + fin];
        assert Trozos(s)[k] == r[k - 1];
      }
    }
  }

  /**
   * `dividir_en_subjugadas`: a first pass accumulates characters and emits
   * every full three-character block; a second pass pops those blocks off
   * the front of the input, and whatever remains becomes the final token.
   */
  method DividirEnSubjugadas(jugada: string) returns (listaJugadas: seq<string>)
    ensures listaJugadas == Trozos(jugada)
  {
    listaJugadas := [];
    var cadenaJugada: string := [];
    for i := 0 to |jugada|
      invariant |cadenaJugada| < 3
      invariant i == 3 * |listaJugadas| + |cadenaJugada|
      invariant cadenaJugada == jugada[3 * |listaJugadas| .. i]
      invariant forall k | 0 <= k < |listaJugadas| :: listaJugadas[k] == jugada[3 * k .. 3 * k + 3]
    {
      cadenaJugada := cadenaJugada + [jugada[i]];
      if |cadenaJugada| == 3 {
        listaJugadas := listaJugadas + [cadenaJugada];
        cadenaJugada := [];
      }
    }

    var resto := jugada;
    for k := 0 to |listaJugadas|
      invariant resto == jugada[3 * k ..]
    {
      resto := resto[1..];
      resto := resto[1..];
      resto := resto[1..];
    }

    ghost var completos := listaJugadas;
    if resto != [] {
      listaJugadas := listaJugadas + [resto];
    }

    TrozosIndices(jugada);
    assert |listaJugadas| == |Trozos(jugada)|;
    forall k | 0 <= k < |listaJugadas|
      ensures listaJugadas[k] == Trozos(jugada)[k]
    {
      if k < |completos| {
        assert listaJugadas[k] == jugada[3 * k .. 3 * k + 3];
      }
    }
  }
}

=== FILE: reglas.dfy ===
/**
 * The board as a value: a grid of cell snapshots. Everything the engine
 * decides (the neighbour counts, whether an action is legal, what an action
 * does, how a whole submission is processed, which character a cell shows)
 * is a function here; the class in tablero.dfy is proved against them.
 */
module Reglas {
  import opened Celdas
  import opened Topologia
  import opened Jugadas

  type Rejilla = seq<seq<EstadoCelda>>

  predicate Rectangular(m: Rejilla, filas: int, columnas: int)
  {
    |m| == filas && forall i | 0 <= i < |m| :: |m[i]| == columnas
  }

  predicate EnRejilla(m: Rejilla, q: Pos)
  {
    0 <= q.0 < |m| && 0 <= q.1 < |m[q.0]|
  }

  datatype Bandera = Mina | Marca

  predicate Tiene(c: EstadoCelda, b: Bandera)
  {
    match b
    case Mina => c.mina
    case Marca => c.marcada
  }

  function Uno(c: EstadoCelda, b: Bandera): nat
  {
    if Tiene(c, b) then 1 else 0
  }

  /** Open, marked and mine flags agree (counts and caches may differ). */
  predicate MismasBanderasCelda(a: EstadoCelda, b: EstadoCelda)
  {
    a.abierta == b.abierta && a.marcada == b.marcada && a.mina == b.mina
  }

  /** The two flags a count reads: the mine and the mark. */
  predicate MismasMinasYMarcas(a: EstadoCelda, b: EstadoCelda)
  {
    a.mina == b.mina && a.marcada == b.marcada
  }

  predicate MismasBanderas(m: Rejilla, n: Rejilla)
  {
    && |m| == |n|
    && (forall i | 0 <= i < |m| :: |m[i]| == |n[i]|)
    && (forall i, j | 0 <= i < |m| && 0 <= j < |m[i]| :: MismasBanderasCelda(m[i][j], n[i][j]))
  }

  // ---------------------------------------------------------------------
  // Counting flags over a row, over the grid and over a list of positions

  function ContarFila(fila: seq<EstadoCelda>, b: Bandera): (r: nat)
    ensures r <= |fila|
  {
    if fila == [] then 0 else ContarFila(fila[..|fila| - 1], b) + Uno(fila[|fila| - 1], b)
  }

  /** Number of cells of the grid that carry flag `b`. */
  function Contar(m: Rejilla, b: Bandera): nat
  {
    if m == [] then 0 else Contar(m[..|m| - 1], b) + ContarFila(m[|m| - 1], b)
  }

  /** Number of listed positions whose cell carries flag `b`. */
  function ContarEn(m: Rejilla, ps: seq<Pos>, b: Bandera): (r: nat)
    requires forall q | q in ps :: EnRejilla(m, q)
    ensures r <= |ps|
  {
    if ps == [] then 0
    else
      var q := ps[|ps| - 1];
      assert q in ps && EnRejilla(m, q);
      ContarEn(m, ps[..|ps| - 1], b) + Uno(m[q.0][q.1], b)
  }

  lemma {:induction false} ContarFilaActualizar(fila: seq<EstadoCelda>, j: int, c: EstadoCelda, b: Bandera)
    requires 0 <= j < |fila|
    ensures ContarFila(fila[j := c], b) == ContarFila(fila, b) - Uno(fila[j], b) + Uno(c, b)
  {
    var n := |fila|;
    var g := fila[j := c];
    assert g[..n - 1] == if j < n - 1 then fila[..n - 1][j := c] else fila[..n - 1];
    if j < n - 1 {
      ContarFilaActualizar(fila[..n - 1], j, c, b);
    }
  }

  /** Changing one cell changes the count of a flag by exactly the change in that cell's contribution. */
  lemma {:induction false} ContarActualizar(m: Rejilla, i: int, j: int, c: EstadoCelda, b: Bandera)
    requires 0 <= i < |m| && 0 <= j < |m[i]|
    ensures Contar(m[i := m[i][j := c]], b) == Contar(m, b) - Uno(m[i][j], b) + Uno(c, b)
  {
    var n := |m|;
    var g := m[i := m[i][j := c]];
    ContarFilaActualizar(m[i], j, c, b);
    if i < n - 1 {
      assert g[..n - 1] == m[..n - 1][i := m[..n - 1][i][j := c]];
      ContarActualizar(m[..n - 1], i, j, c, b);
    } else {
      assert g[..n - 1] == m[..n - 1];
    }
  }

  lemma {:induction false} ContarFilaBanderas(f: seq<EstadoCelda>, g: seq<EstadoCelda>, b: Bandera)
    requires |f| == |g| && forall j | 0 <= j < |f| :: MismasBanderasCelda(f[j], g[j])
    ensures ContarFila(f, b) == ContarFila(g, b)
  {
    if f != [] {
      ContarFilaBanderas(f[..|f| - 1], g[..|g| - 1], b);
    }
  }

  /** Grids with the same flags have the same counts. */
  lemma {:induction false} ContarBanderas(m: Rejilla, n: Rejilla, b: Bandera)
    requires MismasBanderas(m, n)
    ensures Contar(m, b) == Contar(n, b)
  {
    if m != [] {
      var k := |m| - 1;
      ContarFilaBanderas(m[k], n[k], b);
      assert MismasBanderas(m[..k], n[..k]);
      ContarBanderas(m[..k], n[..k], b);
    }
  }

  /** Counting along a list reads only the mine and mark flags of the listed cells. */
  lemma {:induction false} ContarEnBanderas(m: Rejilla, n: Rejilla, ps: seq<Pos>, b: Bandera)
    requires forall q | q in ps :: EnRejilla(m, q) && EnRejilla(n, q) && MismasMinasYMarcas(m[q.0][q.1], n[q.0][q.1])
    ensures ContarEn(m, ps, b) == ContarEn(n, ps, b)
  {
    if ps != [] {
      var q := ps[|ps| - 1];
      assert q in ps;
      ContarEnBanderas(m, n, ps[..|ps| - 1], b);
    }
  }

  lemma {:induction false} ContarFilaLlena(f: seq<EstadoCelda>, b: Bandera)
    requires forall j | 0 <= j < |f| :: Tiene(f[j], b)
    ensures ContarFila(f, b) == |f|
  {
    if f != [] {
      ContarFilaLlena(f[..|f| - 1], b);
    }
  }

  lemma {:induction false} ContarLleno(m: Rejilla, columnas: int, b: Bandera)
    requires Rectangular(m, |m|, columnas)
    requires forall i, j | 0 <= i < |m| && 0 <= j < columnas :: Tiene(m[i][j], b)
    ensures Contar(m, b) == |m| * columnas
  {
    if m != [] {
      var k := |m| - 1;
      ContarFilaLlena(m[k], b);
      ContarLleno(m[..k], columnas, b);
    }
  }

  lemma {:induction false} ContarFilaVacia(f: seq<EstadoCelda>, b: Bandera)
    requires forall j | 0 <= j < |f| :: !Tiene(f[j], b)
    ensures ContarFila(f, b) == 0
  {
    if f != [] {
      ContarFilaVacia(f[..|f| - 1], b);
    }
  }

  /** A grid where no cell carries a flag counts zero of it. */
  lemma {:induction false} ContarVacio(m: Rejilla, b: Bandera)
    requires forall i, j | 0 <= i < |m| && 0 <= j < |m[i]| :: !Tiene(m[i][j], b)
    ensures Contar(m, b) == 0
  {
    if m != [] {
      var k := |m| - 1;
      ContarFilaVacia(m[k], b);
      ContarVacio(m[..k], b);
    }
  }

  /** While fewer than filas*columnas cells carry a flag, some cell lacks it. */
  lemma HayCeldaSin(m: Rejilla, filas: int, columnas: int, b: Bandera)
    requires Rectangular(m, filas, columnas)
    requires Contar(m, b) < filas * columnas
    ensures exists i, j :: 0 <= i < filas && 0 <= j < columnas && !Tiene(m[i][j], b)
  {
    if forall i, j | 0 <= i < filas && 0 <= j < columnas :: Tiene(m[i][j], b) {
      ContarLleno(m, columnas, b);
      assert false;
    }
  }
  /** n is m with mines added: every other field is the same, and no mine has gone. */
  predicate SoloMinasNuevas(m: Rejilla, n: Rejilla, filas: int, columnas: int)
  {
    && Rectangular(m, filas, columnas)
    && Rectangular(n, filas, columnas)
    && forall a, b | 0 <= a < filas && 0 <= b < columnas ::
         n[a][b] == m[a][b].(mina := n[a][b].mina) && (m[a][b].mina ==> n[a][b].mina)
  }

  /** Putting one more mine on a grid keeps it a grid with mines added. */
  lemma SoloMinasNuevasPaso(m: Rejilla, n: Rejilla, filas: int, columnas: int, i: int, j: int)
    requires SoloMinasNuevas(m, n, filas, columnas)
    requires 0 <= i < filas && 0 <= j < columnas
    ensures SoloMinasNuevas(m, n[i := n[i][j := n[i][j].(mina := true)]], filas, columnas)
  {
    var n': Rejilla := n[i := n[i][j := n[i][j].(mina := true)]];
    forall a, b | 0 <= a < filas && 0 <= b < columnas
      ensures n'[a][b] == m[a][b].(mina := n'[a][b].mina) && (m[a][b].mina ==> n'[a][b].mina)
    {
      if (a, b) != (i, j) {
        assert n'[a][b] == n[a][b];
      }
    }
  }


  /** The cells around (i, j) that carry flag `b`, by the hex adjacency relation. */
  function Vecindario(m: Rejilla, filas: int, columnas: int, i: int, j: int, b: Bandera): set<Pos>
    requires Rectangular(m, filas, columnas)
  {
    set a, k | 0 <= a < filas && 0 <= k < columnas && Adyacente(filas, columnas, (i, j), (a, k)) && Tiene(m[a][k], b)
      :: (a, k)
  }

  /** Counting along a list without repetitions counts a set: the order of the list is irrelevant. */
  lemma {:induction false} ContarEnConjunto(m: Rejilla, ps: seq<Pos>, b: Bandera)
    requires forall q | q in ps :: EnRejilla(m, q)
    requires Distintos(ps)
    ensures ContarEn(m, ps, b) == |set q | q in ps && Tiene(m[q.0][q.1], b)|
  {
    if ps != [] {
      var n := |ps| - 1;
      var q := ps[n];
      var ini := ps[..n];
      assert q in ps;
      assert Distintos(ini);
      ContarEnConjunto(m, ini, b);
      var s0 := set x | x in ini && Tiene(m[x.0][x.1], b);
      var s1 := set x | x in ps && Tiene(m[x.0][x.1], b);
      assert q !in ini;
      assert ps == ini + [q];
      if Tiene(m[q.0][q.1], b) {
        assert s1 == s0 + {q};
      } else {
        assert s1 == s0;
      }
    }
  }

  // ---------------------------------------------------------------------
  // Recount of mines to discover (calcular_minas_por_descubrir)

  /** The stored count at one cell: neighbours with a mine minus marked neighbours. */
  function CuentaVecinas(m: Rejilla, filas: int, columnas: int, i: int, j: int): int
    requires filas >= 2 && columnas >= 2 && Rectangular(m, filas, columnas)
    requires 0 <= i < filas && 0 <= j < columnas
  {
    var vs := Vecinas(filas, columnas, i, j);
    ContarEn(m, vs, Mina) - ContarEn(m, vs, Marca)
  }

  /**
   * The count the case table as written yields, over VecinasComoEscrito
   * instead of the corrected Vecinas.
   */
  function CuentaComoEscrito(m: Rejilla, filas: int, columnas: int, i: int, j: int): int
    requires filas >= 2 && columnas >= 2 && Rectangular(m, filas, columnas)
    requires 0 <= i < filas && 0 <= j < columnas
  {
    var vs := VecinasComoEscrito(filas, columnas, i, j);
    ContarEn(m, vs, Mina) - ContarEn(m, vs, Marca)
  }

  /**
   * The as-written count equals the count the model stores everywhere but at
   * the top-right corner, where it adds the mine and subtracts the mark of
   * (1, columnas-2), a cell that corner does not touch.
   */
  lemma CuentaComoEscritoEnEsquina(m: Rejilla, filas: int, columnas: int, i: int, j: int)
    requires filas >= 2 && columnas >= 2 && Rectangular(m, filas, columnas)
    requires 0 <= i < filas && 0 <= j < columnas
    ensures CuentaComoEscrito(m, filas, columnas, i, j) ==
              CuentaVecinas(m, filas, columnas, i, j) +
              (if i == 0 && j == columnas - 1
               then Uno(m[1][columnas - 2], Mina) - Uno(m[1][columnas - 2], Marca)
               else 0)
  {
    if i == 0 && j == columnas - 1 {
      var vs := VecinasComoEscrito(filas, columnas, i, j);
      assert vs[..2] == Vecinas(filas, columnas, i, j);
      assert vs[2] == (1, columnas - 2);
    }
  }

  /**
   * The corner on a 2x2 board with one mine, at (1, 0): the case table as
   * written counts 1 at (0, 1), the model 0, so an opened (0, 1) would show
   * "1" in the program and " " here.
   */
  lemma EsquinaDosPorDos()
    ensures var m := [[NUEVA, NUEVA], [NUEVA.(mina := true), NUEVA]];
            && CuentaComoEscrito(m, 2, 2, 0, 1) == 1
            && CuentaVecinas(m, 2, 2, 0, 1) == 0
            && GetCaracterAImprimir(RecalcularCelda(m, 2, 2, 0, 1).(abierta := true)) == " "
  {
    var m := [[NUEVA, NUEVA], [NUEVA.(mina := true), NUEVA]];
    var vs := Vecinas(2, 2, 0, 1);
    assert vs == [(0, 0), (1, 1)] && vs[..1] == [(0, 0)] && vs[..1][..0] == [];
    assert ContarEn(m, vs[..1], Mina) == 0 && ContarEn(m, vs[..1], Marca) == 0;
    assert ContarEn(m, vs, Mina) == 0 && ContarEn(m, vs, Marca) == 0;
    CuentaComoEscritoEnEsquina(m, 2, 2, 0, 1);
    assert Uno(m[1][0], Mina) == 1 && Uno(m[1][0], Marca) == 0;
  }

  /** One cell after the recount: new count, neighbour list cached if it was still empty. */
  function RecalcularCelda(m: Rejilla, filas: int, columnas: int, i: int, j: int): EstadoCelda
    requires filas >= 2 && columnas >= 2 && Rectangular(m, filas, columnas)
    requires 0 <= i < filas && 0 <= j < columnas
  {
    m[i][j].(minasPorDescubrir := CuentaVecinas(m, filas, columnas, i, j),
             vecinas := if m[i][j].vecinas == [] then Vecinas(filas, columnas, i, j) else m[i][j].vecinas)
  }

  /** The recount of every cell of m, as a function of the cell's position. */
  function Recuento(m: Rejilla, filas: int, columnas: int): (f: (int, int) --> EstadoCelda)
    requires filas >= 2 && columnas >= 2 && Rectangular(m, filas, columnas)
    ensures forall a, b | 0 <= a < filas && 0 <= b < columnas :: f.requires(a, b)
  {
    (a: int, b: int) requires 0 <= a < filas && 0 <= b < columnas => RecalcularCelda(m, filas, columnas, a, b)
  }

  /** The recount changes counts and neighbour caches, never flags. */
  lemma RecuentoBanderas(m: Rejilla, filas: int, columnas: int)
    requires filas >= 2 && columnas >= 2 && Rectangular(m, filas, columnas)
    ensures forall a, b | 0 <= a < filas && 0 <= b < columnas ::
              MismasBanderasCelda(m[a][b], Recuento(m, filas, columnas)(a, b))
  {
  }

  /**
   * f is a recount of m: defined on every cell, agreeing with RecalcularCelda
   * there, and so keeping every flag of m.
   */
  ghost predicate EsRecuento(m: Rejilla, f: (int, int) --> EstadoCelda, filas: int, columnas: int)
    requires filas >= 2 && columnas >= 2 && Rectangular(m, filas, columnas)
  {
    && (forall a, b | 0 <= a < filas && 0 <= b < columnas :: f.requires(a, b))
    && (forall a, b | 0 <= a < filas && 0 <= b < columnas :: MismasBanderasCelda(m[a][b], f(a, b)))
    && (forall a, b {:trigger RecalcularCelda(m, filas, columnas, a, b)} | 0 <= a < filas && 0 <= b < columnas ::
          f(a, b) == RecalcularCelda(m, filas, columnas, a, b))
  }

  /** Recuento is a recount in the sense of EsRecuento. */
  lemma RecuentoEsRecuento(m: Rejilla, filas: int, columnas: int)
    requires filas >= 2 && columnas >= 2 && Rectangular(m, filas, columnas)
    ensures EsRecuento(m, Recuento(m, filas, columnas), filas, columnas)
  {
    RecuentoBanderas(m, filas, columnas);
  }

  /**
   * The grid part-way through the walk of `calcular_minas_por_descubrir`,
   * which visits the cells row by row and overwrites each with f of its
   * position: every cell of the rows above row i and the first j cells of
   * row i hold f, the others are as in m.
   */
  function Parcial(m: Rejilla, f: (int, int) --> EstadoCelda, filas: int, columnas: int, i: nat, j: nat): (r: Rejilla)
    requires Rectangular(m, filas, columnas)
    requires forall a, b | 0 <= a < filas && 0 <= b < columnas :: f.requires(a, b)
    requires i <= filas && j <= columnas && (i == filas ==> j == 0)
    ensures Rectangular(r, filas, columnas)
    decreases i, j
  {
    if j == 0 then
      if i == 0 then m else Parcial(m, f, filas, columnas, i - 1, columnas)
    else
      var p := Parcial(m, f, filas, columnas, i, j - 1);
      p[i := p[i][j - 1 := f(i, j - 1)]]
  }

  /** Cell by cell: a visited cell holds f of its position, an unvisited one is untouched. */
  lemma {:induction false} ParcialEnCelda(m: Rejilla, f: (int, int) --> EstadoCelda, filas: int, columnas: int,
                                          i: nat, j: nat, a: int, b: int)
    requires Rectangular(m, filas, columnas)
    requires forall a, b | 0 <= a < filas && 0 <= b < columnas :: f.requires(a, b)
    requires i <= filas && j <= columnas && (i == filas ==> j == 0)
    requires 0 <= a < filas && 0 <= b < columnas
    ensures Parcial(m, f, filas, columnas, i, j)[a][b] == if a < i || (a == i && b < j) then f(a, b) else m[a][b]
    decreases i, j
  {
    if j == 0 {
      if i > 0 {
        ParcialEnCelda(m, f, filas, columnas, i - 1, columnas, a, b);
      }
    } else {
      ParcialEnCelda(m, f, filas, columnas, i, j - 1, a, b);
    }
  }

  /** When f keeps the flags of m, no cell has changed its flags part-way through the walk. */
  lemma ParcialBanderas(m: Rejilla, f: (int, int) --> EstadoCelda, filas: int, columnas: int, i: nat, j: nat)
    requires Rectangular(m, filas, columnas)
    requires forall a, b | 0 <= a < filas && 0 <= b < columnas :: f.requires(a, b)
    requires forall a, b | 0 <= a < filas && 0 <= b < columnas :: MismasBanderasCelda(m[a][b], f(a, b))
    requires i <= filas && j <= columnas && (i == filas ==> j == 0)
    ensures MismasBanderas(m, Parcial(m, f, filas, columnas, i, j))
  {
    var p := Parcial(m, f, filas, columnas, i, j);
    forall a, b | 0 <= a < filas && 0 <= b < columnas ensures MismasBanderasCelda(m[a][b], p[a][b]) {
      ParcialEnCelda(m, f, filas, columnas, i, j, a, b);
    }
  }

  /**
   * `calcular_minas_por_descubrir` as a whole: the walk over every row, each
   * cell replaced by its recount of m. Flags are untouched.
   */
  function Recalcular(m: Rejilla, filas: int, columnas: int): (r: Rejilla)
    requires filas >= 2 && columnas >= 2 && Rectangular(m, filas, columnas)
    ensures Rectangular(r, filas, columnas)
    ensures MismasBanderas(m, r)
  {
    RecuentoBanderas(m, filas, columnas);
    ParcialBanderas(m, Recuento(m, filas, columnas), filas, columnas, filas, 0);
    Parcial(m, Recuento(m, filas, columnas), filas, columnas, filas, 0)
  }

  /** Every cell of the recounted grid is that cell's recount. */
  lemma RecalcularEnCelda(m: Rejilla, filas: int, columnas: int, i: int, j: int)
    requires filas >= 2 && columnas >= 2 && Rectangular(m, filas, columnas)
    requires 0 <= i < filas && 0 <= j < columnas
    ensures Recalcular(m, filas, columnas)[i][j] == RecalcularCelda(m, filas, columnas, i, j)
  {
    ParcialEnCelda(m, Recuento(m, filas, columnas), filas, columnas, filas, 0, i, j);
  }

  /**
   * After the recount every cell holds (adjacent mined cells) - (adjacent
   * marked cells), a value in [-6, 6]; its flags are untouched and its
   * neighbour list is the topology's whenever it was still empty.
   */
  lemma RecalcularCuenta(m: Rejilla, filas: int, columnas: int, i: int, j: int)
    requires filas >= 2 && columnas >= 2 && Rectangular(m, filas, columnas)
    requires 0 <= i < filas && 0 <= j < columnas
    ensures Recalcular(m, filas, columnas)[i][j].minasPorDescubrir ==
              |Vecindario(m, filas, columnas, i, j, Mina)| - |Vecindario(m, filas, columnas, i, j, Marca)|
    ensures -6 <= Recalcular(m, filas, columnas)[i][j].minasPorDescubrir <= 6
    ensures MismasBanderasCelda(Recalcular(m, filas, columnas)[i][j], m[i][j])
    ensures m[i][j].vecinas == [] ==> Recalcular(m, filas, columnas)[i][j].vecinas == Vecinas(filas, columnas, i, j)
    ensures m[i][j].vecinas != [] ==> Recalcular(m, filas, columnas)[i][j].vecinas == m[i][j].vecinas
  {
    RecalcularEnCelda(m, filas, columnas, i, j);
    CuentaEsVecindario(m, filas, columnas, i, j, Mina);
    CuentaEsVecindario(m, filas, columnas, i, j, Marca);
  }

  lemma CuentaEsVecindario(m: Rejilla, filas: int, columnas: int, i: int, j: int, b: Bandera)
    requires filas >= 2 && columnas >= 2 && Rectangular(m, filas, columnas)
    requires 0 <= i < filas && 0 <= j < columnas
    ensures ContarEn(m, Vecinas(filas, columnas, i, j), b) == |Vecindario(m, filas, columnas, i, j, b)|
  {
    var vs := Vecinas(filas, columnas, i, j);
    ContarEnConjunto(m, vs, b);
    var s := set q | q in vs && Tiene(m[q.0][q.1], b);
    forall q ensures q in s <==> q in Vecindario(m, filas, columnas, i, j, b) {
      VecinasSonAdyacentes(filas, columnas, i, j, q);
    }
    assert s == Vecindario(m, filas, columnas, i, j, b);
  }

  /** A cell's count reads only the mine and mark flags of its listed neighbours. */
  lemma CuentaVecinasBanderas(m: Rejilla, n: Rejilla, filas: int, columnas: int, i: int, j: int)
    requires filas >= 2 && columnas >= 2 && Rectangular(m, filas, columnas)
    requires Rectangular(n, filas, columnas)
    requires 0 <= i < filas && 0 <= j < columnas
    requires forall q | q in Vecinas(filas, columnas, i, j) :: MismasMinasYMarcas(m[q.0][q.1], n[q.0][q.1])
    ensures CuentaVecinas(n, filas, columnas, i, j) == CuentaVecinas(m, filas, columnas, i, j)
  {
    var vs := Vecinas(filas, columnas, i, j);
    ContarEnBanderas(m, n, vs, Mina);
    ContarEnBanderas(m, n, vs, Marca);
  }

  /** With no flag changed in between, a second recount changes nothing. */
  lemma RecalcularIdempotente(m: Rejilla, filas: int, columnas: int)
    requires filas >= 2 && columnas >= 2 && Rectangular(m, filas, columnas)
    ensures Recalcular(Recalcular(m, filas, columnas), filas, columnas) == Recalcular(m, filas, columnas)
  {
    var r1 := Recalcular(m, filas, columnas);
    var r2 := Recalcular(r1, filas, columnas);
    forall i | 0 <= i < filas ensures r2[i] == r1[i] {
      forall j | 0 <= j < columnas ensures r2[i][j] == r1[i][j] {
        RecalcularEnCelda(m, filas, columnas, i, j);
        RecalcularEnCelda(r1, filas, columnas, i, j);
        CuentaVecinasBanderas(m, r1, filas, columnas, i, j);
      }
    }
  }

  /** The counts shown are those of the current flags. */
  predicate CuentasAlDia(m: Rejilla, filas: int, columnas: int)
    requires filas >= 2 && columnas >= 2 && Rectangular(m, filas, columnas)
  {
    forall i, j {:trigger CuentaVecinas(m, filas, columnas, i, j)} | 0 <= i < filas && 0 <= j < columnas ::
      m[i][j].minasPorDescubrir == CuentaVecinas(m, filas, columnas, i, j)
  }

  lemma RecalcularAlDia(m: Rejilla, filas: int, columnas: int)
    requires filas >= 2 && columnas >= 2 && Rectangular(m, filas, columnas)
    ensures CuentasAlDia(Recalcular(m, filas, columnas), filas, columnas)
  {
    var r: Rejilla := Recalcular(m, filas, columnas);
    forall i: int, j: int | 0 <= i < filas && 0 <= j < columnas
      ensures r[i][j].minasPorDescubrir == CuentaVecinas(r, filas, columnas, i, j)
    {
      RecalcularEnCelda(m, filas, columnas, i, j);
      CuentaVecinasBanderas(m, r, filas, columnas, i, j);
    }
  }

  // ---------------------------------------------------------------------
  // Validation of one token (validar_jugada)

  datatype ErrorJugada =
    | EntradaErronea        // malformed token or cell off the board
    | DemasiadasMarcas      // one more mark would exceed the number of mines
    | MarcarCeldaAbierta    // '!' on an open cell
    | AbrirCeldaMarcada     // '*' on a marked cell
    | MarcasInsuficientes   // '*' on an open cell whose count is still positive

  datatype Veredicto = Valida(jugada: Jugada) | Invalida(error: ErrorJugada)

  function ValidarJugada(jugada: string, m: Rejilla, filas: int, columnas: int, marcadas: int, minas: int): (r: Veredicto)
    requires Rectangular(m, filas, columnas)
    ensures r == Invalida(EntradaErronea) <==> !TokenBienFormado(jugada, filas, columnas)
    ensures r.Valida? ==> Decodificar(jugada, filas, columnas) == Some(r.jugada)
    ensures r.Valida? && r.jugada.accion == Marcar ==>
              marcadas + 1 <= minas && !m[r.jugada.fila][r.jugada.columna].abierta
    ensures r.Valida? && r.jugada.accion == Abrir ==>
              var c := m[r.jugada.fila][r.jugada.columna];
              !c.marcada && (c.abierta ==> c.minasPorDescubrir <= 0)
    ensures TokenBienFormado(jugada, filas, columnas) && jugada[2] == '!' && marcadas + 1 > minas ==>
              r == Invalida(DemasiadasMarcas)
    ensures TokenBienFormado(jugada, filas, columnas) && jugada[2] == '!' && marcadas + 1 <= minas ==>
              var j := Decodificar(jugada, filas, columnas).value;
              m[j.fila][j.columna].abierta ==> r == Invalida(MarcarCeldaAbierta)
    ensures TokenBienFormado(jugada, filas, columnas) && jugada[2] != '!' ==>
              var j := Decodificar(jugada, filas, columnas).value;
              m[j.fila][j.columna].marcada ==> r == Invalida(AbrirCeldaMarcada)
    ensures TokenBienFormado(jugada, filas, columnas) && jugada[2] != '!' ==>
              var c := m[Decodificar(jugada, filas, columnas).value.fila][Decodificar(jugada, filas, columnas).value.columna];
              !c.marcada && c.abierta && c.minasPorDescubrir > 0 ==> r == Invalida(MarcasInsuficientes)
    ensures TokenBienFormado(jugada, filas, columnas) ==>
              var j := Decodificar(jugada, filas, columnas).value;
              var c := m[j.fila][j.columna];
              (if j.accion == Marcar then marcadas + 1 <= minas && !c.abierta
               else !c.marcada && (c.abierta ==> c.minasPorDescubrir <= 0)) ==> r == Valida(j)
  {
    match Decodificar(jugada, filas, columnas)
    case None => Invalida(EntradaErronea)
    case Some(j) =>
      var c := m[j.fila][j.columna];
      if j.accion == Marcar then
        if marcadas + 1 > minas then Invalida(DemasiadasMarcas)
        else if c.abierta then Invalida(MarcarCeldaAbierta)
        else Valida(j)
      else
        if c.marcada then Invalida(AbrirCeldaMarcada)
        else if c.abierta && c.minasPorDescubrir > 0 then Invalida(MarcasInsuficientes)
        else Valida(j)
  }

  /** Every legal action on the board, written as a token, is accepted as that action. */
  lemma ValidarCodificada(j: Jugada, m: Rejilla, filas: int, columnas: int, marcadas: int, minas: int)
    requires Rectangular(m, filas, columnas)
    requires j.fila < filas && j.columna < columnas
    requires j.fila < |NOMBRE_FILAS| && j.columna < |NOMBRE_COLUMNAS|
    requires j.accion == Marcar ==> marcadas + 1 <= minas && !m[j.fila][j.columna].abierta
    requires j.accion == Abrir ==>
               !m[j.fila][j.columna].marcada &&
               (m[j.fila][j.columna].abierta ==> m[j.fila][j.columna].minasPorDescubrir <= 0)
    ensures ValidarJugada(Codificar(j), m, filas, columnas, marcadas, minas) == Valida(j)
  {
    DecodificarCodificar(j, filas, columnas);
  }

  // ---------------------------------------------------------------------
  // One action (hacer_jugada) and one submission (the token loop of jugar)

  /** What the engine tracks between actions: the grid and the marked-cell counter. */
  datatype Situacion = Situacion(rejilla: Rejilla, marcadas: int)

  /** The counter agrees with the grid. */
  predicate ContadorCoherente(s: Situacion)
  {
    s.marcadas == Contar(s.rejilla, Marca)
  }

  datatype Efecto = Efecto(situacion: Situacion, fin: bool)

  function Aplicar(s: Situacion, filas: int, columnas: int, j: Jugada): (e: Efecto)
    requires Rectangular(s.rejilla, filas, columnas)
    requires j.fila < filas && j.columna < columnas
    ensures Rectangular(e.situacion.rejilla, filas, columnas)
    ensures forall a, b | 0 <= a < filas && 0 <= b < columnas && (a, b) != (j.fila, j.columna) ::
              e.situacion.rejilla[a][b] == s.rejilla[a][b]
    ensures j.accion == Marcar ==>
              var c := s.rejilla[j.fila][j.columna];
              && !e.fin
              && e.situacion.rejilla[j.fila][j.columna] == c.(marcada := !c.marcada)
              && e.situacion.marcadas == if c.marcada then s.marcadas - 1 else s.marcadas + 1
    ensures j.accion == Abrir && !s.rejilla[j.fila][j.columna].mina ==>
              var c := s.rejilla[j.fila][j.columna];
              && !e.fin
              && e.situacion.rejilla[j.fila][j.columna] == c.(abierta := true)
              && e.situacion.marcadas == s.marcadas
    ensures j.accion == Abrir && s.rejilla[j.fila][j.columna].mina ==> e.fin && e.situacion == s
    ensures ContadorCoherente(s) ==> ContadorCoherente(e.situacion)
    ensures Contar(e.situacion.rejilla, Mina) == Contar(s.rejilla, Mina)
  {
    var m := s.rejilla;
    var c := m[j.fila][j.columna];
    if j.accion == Marcar then
      var c' := c.(marcada := !c.marcada);
      ContarActualizar(m, j.fila, j.columna, c', Marca);
      ContarActualizar(m, j.fila, j.columna, c', Mina);
      Efecto(Situacion(m[j.fila := m[j.fila][j.columna := c']],
                       if c.marcada then s.marcadas - 1 else s.marcadas + 1), false)
    else if !c.mina then
      var c' := c.(abierta := true);
      ContarActualizar(m, j.fila, j.columna, c', Marca);
      ContarActualizar(m, j.fila, j.columna, c', Mina);
      Efecto(Situacion(m[j.fila := m[j.fila][j.columna := c']], s.marcadas), false)
    else
      Efecto(s, true)
  }

  /** Marking a cell and marking it again restores the grid and the counter. */
  lemma MarcarDosVeces(s: Situacion, filas: int, columnas: int, f: nat, c: nat)
    requires Rectangular(s.rejilla, filas, columnas)
    requires f < filas && c < columnas
    ensures var j := Jugada(f, c, Marcar);
            Aplicar(Aplicar(s, filas, columnas, j).situacion, filas, columnas, j).situacion == s
  {
    var j := Jugada(f, c, Marcar);
    var s2 := Aplicar(Aplicar(s, filas, columnas, j).situacion, filas, columnas, j).situacion;
    assert s2.rejilla[f] == s.rejilla[f];
  }

  /** The result of processing a submission: where it stopped and why. */
  datatype Salida = Salida(situacion: Situacion, fin: bool, error: Option<ErrorJugada>, aplicadas: nat)

  /** One applied action followed by the recount, as the token loop of `jugar` does. */
  function Paso(s: Situacion, filas: int, columnas: int, j: Jugada): (e: Efecto)
    requires filas >= 2 && columnas >= 2 && Rectangular(s.rejilla, filas, columnas)
    requires j.fila < filas && j.columna < columnas
    ensures Rectangular(e.situacion.rejilla, filas, columnas)
    ensures CuentasAlDia(e.situacion.rejilla, filas, columnas)
    ensures e.fin == (j.accion == Abrir && s.rejilla[j.fila][j.columna].mina)
    ensures e.situacion.marcadas <= s.marcadas + 1
    ensures j.accion == Abrir ==> e.situacion.marcadas == s.marcadas
    ensures ContadorCoherente(s) ==> ContadorCoherente(e.situacion)
    ensures Contar(e.situacion.rejilla, Mina) == Contar(s.rejilla, Mina)
  {
    var a := Aplicar(s, filas, columnas, j);
    var t := Recalcular(a.situacion.rejilla, filas, columnas);
    RecalcularAlDia(a.situacion.rejilla, filas, columnas);
    ContarBanderas(a.situacion.rejilla, t, Marca);
    ContarBanderas(a.situacion.rejilla, t, Mina);
    Efecto(a.situacion.(rejilla := t), a.fin)
  }
  /** A step is the action's effect followed by a recount. */
  lemma PasoDesplegar(s: Situacion, filas: int, columnas: int, j: Jugada)
    requires filas >= 2 && columnas >= 2 && Rectangular(s.rejilla, filas, columnas)
    requires j.fila < filas && j.columna < columnas
    ensures var a := Aplicar(s, filas, columnas, j);
            Paso(s, filas, columnas, j) ==
              Efecto(Situacion(Recalcular(a.situacion.rejilla, filas, columnas), a.situacion.marcadas), a.fin)
  {
  }


  /**
   * Tokens are validated and applied in order, recounting after each applied
   * one; processing stops at the first rejected token (reporting its error)
   * or right after an action that ends the game.
   */
  function Procesar(s: Situacion, filas: int, columnas: int, minas: int, jugadas: seq<string>): (r: Salida)
    requires filas >= 2 && columnas >= 2 && Rectangular(s.rejilla, filas, columnas)
    ensures Rectangular(r.situacion.rejilla, filas, columnas)
    ensures r.aplicadas <= |jugadas|
    ensures !(r.fin && r.error.Some?)
    ensures r.error.Some? ==> r.aplicadas < |jugadas|
    ensures !r.fin && r.error.None? ==> r.aplicadas == |jugadas|
    ensures r.fin ==> r.aplicadas > 0
    ensures r.aplicadas > 0 ==> CuentasAlDia(r.situacion.rejilla, filas, columnas)
    ensures r.aplicadas == 0 ==> r.situacion == s
    ensures ContadorCoherente(s) ==> ContadorCoherente(r.situacion)
    ensures s.marcadas <= minas ==> r.situacion.marcadas <= minas
    ensures Contar(r.situacion.rejilla, Mina) == Contar(s.rejilla, Mina)
    decreases |jugadas|
  {
    if jugadas == [] then Salida(s, false, None, 0)
    else
      match ValidarJugada(jugadas[0], s.rejilla, filas, columnas, s.marcadas, minas)
      case Invalida(err) => Salida(s, false, Some(err), 0)
      case Valida(j) =>
        var e := Paso(s, filas, columnas, j);
        if e.fin then Salida(e.situacion, true, None, 1)
        else
          var r := Procesar(e.situacion, filas, columnas, minas, jugadas[1..]);
          Salida(r.situacion, r.fin, r.error, r.aplicadas + 1)
  }

  /** Once processing has stopped, whatever follows in the submission is ignored. */
  lemma {:induction false} ProcesarIgnoraResto(s: Situacion, filas: int, columnas: int, minas: int,
                                                jugadas: seq<string>, resto: seq<string>)
    requires filas >= 2 && columnas >= 2 && Rectangular(s.rejilla, filas, columnas)
    requires Procesar(s, filas, columnas, minas, jugadas).fin || Procesar(s, filas, columnas, minas, jugadas).error.Some?
    ensures Procesar(s, filas, columnas, minas, jugadas + resto) == Procesar(s, filas, columnas, minas, jugadas)
    decreases |jugadas|
  {
    var todas := jugadas + resto;
    assert jugadas != [];
    ColaConcatenada(jugadas, resto);
    var v := ValidarJugada(jugadas[0], s.rejilla, filas, columnas, s.marcadas, minas);
    if v.Invalida? {
      assert Procesar(s, filas, columnas, minas, todas) == Salida(s, false, Some(v.error), 0);
    } else {
      var e := Paso(s, filas, columnas, v.jugada);
      if e.fin {
        assert Procesar(s, filas, columnas, minas, todas) == Salida(e.situacion, true, None, 1);
      } else {
        var r := Procesar(e.situacion, filas, columnas, minas, jugadas[1..]);
        assert Procesar(s, filas, columnas, minas, jugadas) == r.(aplicadas := r.aplicadas + 1) by {
          ProcesarDesplegar(s, filas, columnas, minas, jugadas);
        }
        ProcesarIgnoraResto(e.situacion, filas, columnas, minas, jugadas[1..], resto);
        var cola := jugadas[1..] + resto;
        assert Procesar(e.situacion, filas, columnas, minas, cola) == r;
        ProcesarDesplegar(s, filas, columnas, minas, todas);
        assert Procesar(s, filas, columnas, minas, todas) == r.(aplicadas := r.aplicadas + 1);
      }
    }
  }

  lemma ColaConcatenada(a: seq<string>, b: seq<string>)
    ensures a != [] ==> (a + b)[0] == a[0] && (a + b)[1..] == a[1..] + b
    ensures a == [] ==> a + b == b
  {
  }

  /** One unfolding of Procesar past an accepted token that does not end the game. */
  lemma ProcesarDesplegar(s: Situacion, filas: int, columnas: int, minas: int, jugadas: seq<string>)
    requires filas >= 2 && columnas >= 2 && Rectangular(s.rejilla, filas, columnas)
    requires jugadas != []
    requires ValidarJugada(jugadas[0], s.rejilla, filas, columnas, s.marcadas, minas).Valida?
    requires !Paso(s, filas, columnas, ValidarJugada(jugadas[0], s.rejilla, filas, columnas, s.marcadas, minas).jugada).fin
    ensures var e := Paso(s, filas, columnas, ValidarJugada(jugadas[0], s.rejilla, filas, columnas, s.marcadas, minas).jugada);
            var r := Procesar(e.situacion, filas, columnas, minas, jugadas[1..]);
            Procesar(s, filas, columnas, minas, jugadas) == r.(aplicadas := r.aplicadas + 1)
  {
  }

  /** A submission prefix that neither ended the game nor hit an error accepted its first token. */
  lemma ProcesarContinua(s: Situacion, filas: int, columnas: int, minas: int, jugadas: seq<string>)
    requires filas >= 2 && columnas >= 2 && Rectangular(s.rejilla, filas, columnas)
    requires !Procesar(s, filas, columnas, minas, jugadas).fin && Procesar(s, filas, columnas, minas, jugadas).error.None?
    requires jugadas != []
    ensures ValidarJugada(jugadas[0], s.rejilla, filas, columnas, s.marcadas, minas).Valida?
    ensures var e := Paso(s, filas, columnas, ValidarJugada(jugadas[0], s.rejilla, filas, columnas, s.marcadas, minas).jugada);
            && !e.fin
            && var r := Procesar(e.situacion, filas, columnas, minas, jugadas[1..]);
            && !r.fin && r.error.None?
            && Procesar(s, filas, columnas, minas, jugadas) == r.(aplicadas := r.aplicadas + 1)
  {
    var v := ValidarJugada(jugadas[0], s.rejilla, filas, columnas, s.marcadas, minas);
    if v.Valida? {
      var e := Paso(s, filas, columnas, v.jugada);
      if !e.fin {
        ProcesarDesplegar(s, filas, columnas, minas, jugadas);
      }
    }
  }

  /** A submission that runs to its end without stopping is followed seamlessly by the next tokens. */
  lemma {:induction false} ProcesarEnSecuencia(s: Situacion, filas: int, columnas: int, minas: int,
                                                jugadas: seq<string>, resto: seq<string>)
    requires filas >= 2 && columnas >= 2 && Rectangular(s.rejilla, filas, columnas)
    requires !Procesar(s, filas, columnas, minas, jugadas).fin && Procesar(s, filas, columnas, minas, jugadas).error.None?
    ensures var r1 := Procesar(s, filas, columnas, minas, jugadas);
            var r2 := Procesar(r1.situacion, filas, columnas, minas, resto);
            Procesar(s, filas, columnas, minas, jugadas + resto) == r2.(aplicadas := |jugadas| + r2.aplicadas)
    decreases |jugadas|
  {
    ColaConcatenada(jugadas, resto);
    if jugadas == [] {
      assert Procesar(s, filas, columnas, minas, jugadas) == Salida(s, false, None, 0);
    } else {
      ProcesarContinua(s, filas, columnas, minas, jugadas);
      var v := ValidarJugada(jugadas[0], s.rejilla, filas, columnas, s.marcadas, minas);
      var e := Paso(s, filas, columnas, v.jugada);
      ProcesarEnSecuencia(e.situacion, filas, columnas, minas, jugadas[1..], resto);
      ProcesarDesplegar(s, filas, columnas, minas, jugadas + resto);
    }
  }

  /**
   * The token loop, one token at a time: after an uninterrupted prefix of i
   * tokens, token i is either rejected (and the submission ends there with
   * its error), or accepted and ends the game, or accepted and extends the
   * uninterrupted prefix by one.
   */
  lemma ProcesarPrefijoInvalido(s: Situacion, filas: int, columnas: int, minas: int, jugadas: seq<string>, i: nat)
    requires filas >= 2 && columnas >= 2 && Rectangular(s.rejilla, filas, columnas)
    requires i < |jugadas|
    requires var p := Procesar(s, filas, columnas, minas, jugadas[..i]);
             !p.fin && p.error.None? &&
             ValidarJugada(jugadas[i], p.situacion.rejilla, filas, columnas, p.situacion.marcadas, minas).Invalida?
    ensures var p := Procesar(s, filas, columnas, minas, jugadas[..i]);
            var v := ValidarJugada(jugadas[i], p.situacion.rejilla, filas, columnas, p.situacion.marcadas, minas);
            Procesar(s, filas, columnas, minas, jugadas) == Salida(p.situacion, false, Some(v.error), i)
  {
    var p := Procesar(s, filas, columnas, minas, jugadas[..i]);
    PartirEn(jugadas, i);
    ProcesarEnSecuencia(s, filas, columnas, minas, jugadas[..i], jugadas[i..]);
    ProcesarCabeza(p.situacion, filas, columnas, minas, jugadas[i..]);
  }

  lemma ProcesarPrefijoFin(s: Situacion, filas: int, columnas: int, minas: int, jugadas: seq<string>, i: nat)
    requires filas >= 2 && columnas >= 2 && Rectangular(s.rejilla, filas, columnas)
    requires i < |jugadas|
    requires var p := Procesar(s, filas, columnas, minas, jugadas[..i]);
             var v := ValidarJugada(jugadas[i], p.situacion.rejilla, filas, columnas, p.situacion.marcadas, minas);
             !p.fin && p.error.None? && v.Valida? && Paso(p.situacion, filas, columnas, v.jugada).fin
    ensures var p := Procesar(s, filas, columnas, minas, jugadas[..i]);
            var v := ValidarJugada(jugadas[i], p.situacion.rejilla, filas, columnas, p.situacion.marcadas, minas);
            Procesar(s, filas, columnas, minas, jugadas) ==
              Salida(Paso(p.situacion, filas, columnas, v.jugada).situacion, true, None, i + 1)
  {
    var p := Procesar(s, filas, columnas, minas, jugadas[..i]);
    PartirEn(jugadas, i);
    ProcesarEnSecuencia(s, filas, columnas, minas, jugadas[..i], jugadas[i..]);
    ProcesarCabeza(p.situacion, filas, columnas, minas, jugadas[i..]);
  }

  lemma ProcesarPrefijoSigue(s: Situacion, filas: int, columnas: int, minas: int, jugadas: seq<string>, i: nat)
    requires filas >= 2 && columnas >= 2 && Rectangular(s.rejilla, filas, columnas)
    requires i < |jugadas|
    requires var p := Procesar(s, filas, columnas, minas, jugadas[..i]);
             var v := ValidarJugada(jugadas[i], p.situacion.rejilla, filas, columnas, p.situacion.marcadas, minas);
             !p.fin && p.error.None? && v.Valida? && !Paso(p.situacion, filas, columnas, v.jugada).fin
    ensures var p := Procesar(s, filas, columnas, minas, jugadas[..i]);
            var v := ValidarJugada(jugadas[i], p.situacion.rejilla, filas, columnas, p.situacion.marcadas, minas);
            Procesar(s, filas, columnas, minas, jugadas[..i + 1]) ==
              Salida(Paso(p.situacion, filas, columnas, v.jugada).situacion, false, None, i + 1)
  {
    var p := Procesar(s, filas, columnas, minas, jugadas[..i]);
    PartirEn(jugadas, i);
    ProcesarEnSecuencia(s, filas, columnas, minas, jugadas[..i], [jugadas[i]]);
    ProcesarCabeza(p.situacion, filas, columnas, minas, [jugadas[i]]);
    var v := ValidarJugada(jugadas[i], p.situacion.rejilla, filas, columnas, p.situacion.marcadas, minas);
    ProcesarCabeza(Paso(p.situacion, filas, columnas, v.jugada).situacion, filas, columnas, minas, []);
  }

  lemma PartirEn(a: seq<string>, i: nat)
    requires i < |a|
    ensures a[..i] + a[i..] == a
    ensures a[i..] != [] && a[i..][0] == a[i]
    ensures a[..i] + [a[i]] == a[..i + 1]
    ensures [a[i]][0] == a[i] && [a[i]][1..] == []
  {
  }

  /** The first step of Procesar on a non-empty submission, each outcome spelled out. */
  lemma ProcesarCabeza(s: Situacion, filas: int, columnas: int, minas: int, jugadas: seq<string>)
    requires filas >= 2 && columnas >= 2 && Rectangular(s.rejilla, filas, columnas)
    ensures jugadas == [] ==> Procesar(s, filas, columnas, minas, jugadas) == Salida(s, false, None, 0)
    ensures jugadas != [] ==>
              var v := ValidarJugada(jugadas[0], s.rejilla, filas, columnas, s.marcadas, minas);
              && (v.Invalida? ==> Procesar(s, filas, columnas, minas, jugadas) == Salida(s, false, Some(v.error), 0))
              && (v.Valida? ==>
                    var e := Paso(s, filas, columnas, v.jugada);
                    && (e.fin ==> Procesar(s, filas, columnas, minas, jugadas) == Salida(e.situacion, true, None, 1))
                    && (!e.fin ==>
                          var r := Procesar(e.situacion, filas, columnas, minas, jugadas[1..]);
                          Procesar(s, filas, columnas, minas, jugadas) == r.(aplicadas := r.aplicadas + 1)))
  {
    if jugadas != [] {
      var v := ValidarJugada(jugadas[0], s.rejilla, filas, columnas, s.marcadas, minas);
      if v.Invalida? {
        assert Procesar(s, filas, columnas, minas, jugadas) == Salida(s, false, Some(v.error), 0);
      } else {
        var e := Paso(s, filas, columnas, v.jugada);
        if e.fin {
          assert Procesar(s, filas, columnas, minas, jugadas) == Salida(e.situacion, true, None, 1);
        } else {
          ProcesarDesplegar(s, filas, columnas, minas, jugadas);
        }
      }
    }
  }

  // ---------------------------------------------------------------------
  // The character a cell shows (get_caracter_a_imprimir)

  /** The shading block drawn for a closed, unmarked cell. */
  const SOMBRA: char := '\U{2593}'

  function Digito(d: nat): (r: char)
    requires d < 10
    ensures '0' <= r <= '9'
    ensures r as int - '0' as int == d
  {
    ['0', '1', '2', '3', '4', '5', '6', '7', '8', '9'][d]
  }

  /** The number a string of decimal digits spells, most significant digit first. */
  function ValorDecimal(s: string): int
  {
    if s == [] then 0 else 10 * ValorDecimal(s[..|s| - 1]) + (s[|s| - 1] as int - '0' as int)
  }

  /** Python's `str` of a non-negative integer: its decimal digits, without leading zeros. */
  function Decimal(n: nat): (r: string)
    ensures 1 <= |r|
    ensures forall k | 0 <= k < |r| :: '0' <= r[k] <= '9'
    ensures ValorDecimal(r) == n
    ensures r[0] == '0' <==> n == 0
    ensures n < 10 <==> |r| == 1
  {
    if n < 10 then [Digito(n)]
    else
      var p := Decimal(n / 10);
      assert (p + [Digito(n % 10)])[..|p|] == p;
      p + [Digito(n % 10)]
  }

  /**
   * The branches in source order. The first five already cover every
   * state, so the '#' (wrong mark) and '*' (missed mine) branches, and the
   * fall-through after them, are never taken.
   */
  function GetCaracterAImprimir(c: EstadoCelda): (r: string)
    ensures !c.abierta ==> r == if c.marcada then "X" else [SOMBRA]
    ensures c.abierta && c.minasPorDescubrir == 0 ==> r == " "
    ensures c.abierta && c.minasPorDescubrir < 0 ==> r == "?"
    ensures c.abierta && c.minasPorDescubrir > 0 ==> r == Decimal(c.minasPorDescubrir)
    ensures c.abierta && 0 < c.minasPorDescubrir < 10 ==> r == [Digito(c.minasPorDescubrir)]
    ensures r != "#" && r != "*"
    ensures -9 <= c.minasPorDescubrir <= 9 ==> |r| == 1
  {
    if !c.abierta && !c.marcada then [SOMBRA]
    else if !c.abierta && c.marcada then "X"
    else if c.abierta && c.minasPorDescubrir == 0 then " "
    else if c.abierta && c.minasPorDescubrir < 0 then "?"
    else if c.abierta && c.minasPorDescubrir > 0 then Decimal(c.minasPorDescubrir)
    else if c.abierta && c.marcada && !c.mina then "#"
    else if c.abierta && !c.marcada && c.mina then "*"
    else assert false; ""
  }
}

=== FILE: tablero.dfy ===
/**
 * The board as the game keeps it: a grid of Celda objects, updated in place,
 * plus the number of marked cells. Each operation is proved against the
 * value-level rules: the grid snapshot `Modelo` after the call is the
 * function of the snapshot before it that the rules prescribe.
 */
module Buscaminas {
  import opened Celdas
  import opened Topologia
  import opened Jugadas
  import opened Reglas

  class Tablero {
    const filas: nat
    const columnas: nat
    const celdas: seq<seq<Celda>>
    /** Number of marked cells (a class-level counter of Celda in the original program). */
    var marcadas: int
    ghost const Repr: set<object>
    /** Snapshot of every cell's state. */
    ghost var Modelo: Rejilla

    /** The grid has the board's dimensions and each cell sits at the position it records. */
    ghost predicate Forma()
    {
      && this !in Repr
      && |celdas| == filas
      && (forall i | 0 <= i < filas :: |celdas[i]| == columnas)
      && (forall i, j | 0 <= i < filas && 0 <= j < columnas ::
            celdas[i][j] in Repr && celdas[i][j].fila == i && celdas[i][j].columna == j)
    }

    /** The snapshot matches the cells. */
    ghost predicate Refleja()
      reads this, Repr
      requires Forma()
    {
      && Rectangular(Modelo, filas, columnas)
      && forall i, j | 0 <= i < filas && 0 <= j < columnas :: celdas[i][j].Estado() == Modelo[i][j]
    }

    /** The board is well formed and the counter is the number of marked cells. */
    ghost predicate Valid()
      reads this, Repr
    {
      Forma() && Refleja() && marcadas == Contar(Modelo, Marca)
    }

    function EstadosFila(i: nat, n: nat): (r: seq<EstadoCelda>)
      reads this, Repr
      requires Forma() && i < filas && n <= columnas
      ensures |r| == n && forall j | 0 <= j < n :: r[j] == celdas[i][j].Estado()
    {
      if n == 0 then [] else EstadosFila(i, n - 1) + [celdas[i][n - 1].Estado()]
    }

    function EstadosHasta(n: nat): (r: Rejilla)
      reads this, Repr
      requires Forma() && n <= filas
      ensures |r| == n && forall i | 0 <= i < n :: r[i] == EstadosFila(i, columnas)
    {
      if n == 0 then [] else EstadosHasta(n - 1) + [EstadosFila(n - 1, columnas)]
    }

    /** The snapshot, read off the cells. */
    function Instantanea(): (m: Rejilla)
      reads this, Repr
      requires Valid()
      ensures m == Modelo
    {
      var m := EstadosHasta(filas);
      assert forall i | 0 <= i < filas :: m[i] == Modelo[i];
      m
    }

    /** The first half of `crear_tablero`: filas rows of columnas fresh cells, each recording its position. */
    static method CrearCeldas(filas: nat, columnas: nat) returns (tablero: seq<seq<Celda>>, ghost repr: set<object>)
      ensures fresh(repr)
      ensures |tablero| == filas && forall i | 0 <= i < filas :: |tablero[i]| == columnas
      ensures forall i, j | 0 <= i < filas && 0 <= j < columnas ::
                && tablero[i][j] in repr
                && tablero[i][j].fila == i && tablero[i][j].columna == j
                && tablero[i][j].Estado() == NUEVA
    {
      tablero := [];
      repr := {};
      for i := 0 to filas
        invariant |tablero| == i
        invariant forall a | 0 <= a < i :: |tablero[a]| == columnas
        invariant forall a, b | 0 <= a < i && 0 <= b < columnas ::
                    && tablero[a][b] in repr
                    && tablero[a][b].fila == a && tablero[a][b].columna == b
                    && tablero[a][b].Estado() == NUEVA
        invariant fresh(repr)
      {
        var componentesFila: seq<Celda> := [];
        for j := 0 to columnas
          invariant |componentesFila| == j
          invariant forall b | 0 <= b < j ::
                      && componentesFila[b] in repr
                      && componentesFila[b].fila == i && componentesFila[b].columna == b
                      && componentesFila[b].Estado() == NUEVA
          invariant forall a, b | 0 <= a < i && 0 <= b < columnas ::
                      tablero[a][b] in repr && tablero[a][b].Estado() == NUEVA
          invariant fresh(repr)
        {
          var c := new Celda(i, j);
          componentesFila := componentesFila + [c];
          repr := repr + {c};
        }
        tablero := tablero + [componentesFila];
      }
    }

    /**
     * `crear_tablero`: filas rows of columnas fresh cells, then mines placed
     * one at a time on cells that do not hold one yet, until `minas` are down.
     */
    constructor (filas: nat, columnas: nat, minas: nat)
      requires minas <= filas * columnas
      ensures Valid() && fresh(Repr)
      ensures this.filas == filas && this.columnas == columnas
      ensures marcadas == 0
      ensures Contar(Modelo, Mina) == minas
      ensures forall i, j | 0 <= i < filas && 0 <= j < columnas :: Modelo[i][j] == NUEVA.(mina := Modelo[i][j].mina)
    {
      var tablero;
      ghost var repr;
      tablero, repr := CrearCeldas(filas, columnas);
      this.filas := filas;
      this.columnas := columnas;
      celdas := tablero;
      marcadas := 0;
      Repr := repr;
      Modelo := seq(filas, i => seq(columnas, j => NUEVA));
      new;
      ContarVacio(Modelo, Marca);
      ContarVacio(Modelo, Mina);
      PonerMinas(minas);
    }

    /**
     * The random draw of `crear_tablero`, reduced to its successful outcome:
     * some cell without a mine, which exists while fewer cells hold a mine
     * than the board has. Which one is left open.
     */
    method ElegirCeldaSinMina() returns (i: nat, j: nat)
      requires Valid() && Contar(Modelo, Mina) < filas * columnas
      ensures i < filas && j < columnas && !Modelo[i][j].mina
    {
      HayCeldaSin(Modelo, filas, columnas, Mina);
      assert exists a, b :: 0 <= a < filas && 0 <= b < columnas && !celdas[a][b].hayMina by {
        var a, b :| 0 <= a < filas && 0 <= b < columnas && !Tiene(Modelo[a][b], Mina);
        assert celdas[a][b].Estado() == Modelo[a][b];
      }
      i, j :| 0 <= i < filas && 0 <= j < columnas && !celdas[i][j].hayMina;
      assert celdas[i][j].Estado() == Modelo[i][j];
    }

    /** `poner_mina` on a cell without one: the cell gets a mine, one more mine on the board. */
    method PonerMinaEn(i: nat, j: nat)
      requires Valid() && i < filas && j < columnas && !Modelo[i][j].mina
      modifies this, celdas[i][j]
      ensures Valid() && marcadas == old(marcadas)
      ensures Modelo == old(Modelo)[i := old(Modelo)[i][j := old(Modelo)[i][j].(mina := true)]]
      ensures Contar(Modelo, Mina) == old(Contar(Modelo, Mina)) + 1
    {
      var celda := celdas[i][j];
      celda.PonerMina();
      ContarActualizar(Modelo, i, j, celda.Estado(), Mina);
      ContarActualizar(Modelo, i, j, celda.Estado(), Marca);
      Modelo := Modelo[i := Modelo[i][j := celda.Estado()]];
      assert Refleja() by {
        forall a, b | 0 <= a < filas && 0 <= b < columnas ensures celdas[a][b].Estado() == Modelo[a][b] {
          if (a, b) != (i, j) {
            assert celdas[a][b] != celda;
          }
        }
      }
    }

    /**
     * The second half of `crear_tablero`: while mines remain to be placed,
     * a cell without one gets one. Only mine flags change, and no mine is removed.
     */
    method PonerMinas(minas: nat)
      requires Valid() && Contar(Modelo, Mina) + minas <= filas * columnas
      modifies this, Repr
      ensures Valid() && marcadas == old(marcadas)
      ensures Contar(Modelo, Mina) == old(Contar(Modelo, Mina)) + minas
      ensures SoloMinasNuevas(old(Modelo), Modelo, filas, columnas)
    {
      ghost var m0 := Modelo;
      var restantes := minas;
      while restantes != 0
        invariant Valid() && marcadas == old(marcadas)
        invariant 0 <= restantes <= minas
        invariant Contar(Modelo, Mina) + restantes == Contar(m0, Mina) + minas
        invariant SoloMinasNuevas(m0, Modelo, filas, columnas)
        decreases restantes
      {
        var i, j := ElegirCeldaSinMina();
        SoloMinasNuevasPaso(m0, Modelo, filas, columnas, i, j);
        PonerMinaEn(i, j);
        restantes := restantes - 1;
      }
    }

    /**
     * The counting half of one step of `calcular_minas_por_descubrir`: walk
     * the neighbours of (i, j) and count those with a mine and those marked.
     * Only flags are read, so any grid `m` with the same flags as the cells
     * gives the same counts.
     */
    method ContarVecinas(i: int, j: int, ghost m: Rejilla) returns (celdasVecinasConMina: int, celdasVecinasMarcadas: int)
      requires Forma() && filas >= 2 && columnas >= 2 && 0 <= i < filas && 0 <= j < columnas
      requires Rectangular(m, filas, columnas)
      requires forall a, b | 0 <= a < filas && 0 <= b < columnas :: MismasBanderasCelda(celdas[a][b].Estado(), m[a][b])
      ensures celdasVecinasConMina == ContarEn(m, Vecinas(filas, columnas, i, j), Mina)
      ensures celdasVecinasMarcadas == ContarEn(m, Vecinas(filas, columnas, i, j), Marca)
    {
      var vs := Vecinas(filas, columnas, i, j);
      assert forall q | q in vs :: EnRejilla(m, q);
      celdasVecinasConMina := 0;
      celdasVecinasMarcadas := 0;
      for k := 0 to |vs|
        invariant forall q | q in vs[..k] :: EnRejilla(m, q)
        invariant celdasVecinasConMina == ContarEn(m, vs[..k], Mina)
        invariant celdasVecinasMarcadas == ContarEn(m, vs[..k], Marca)
      {
        var q := vs[k];
        assert q in vs;
        assert vs[..k + 1][..k] == vs[..k];
        var vecina := celdas[q.0][q.1];
        assert MismasBanderasCelda(vecina.Estado(), m[q.0][q.1]);
        var conMina := vecina.HayMina();
        if conMina {
          celdasVecinasConMina := celdasVecinasConMina + 1;
        }
        var marcada := vecina.IsMarcada();
        if marcada {
          celdasVecinasMarcadas := celdasVecinasMarcadas + 1;
        }
      }
      assert vs[..|vs|] == vs;
    }

    /** The caching half: append each listed neighbour to the cell's list, in order. */
    static method AgregarVecinas(celda: Celda, vs: seq<Pos>)
      modifies celda
      ensures celda.Estado() == old(celda.Estado()).(vecinas := old(celda.vecinas) + vs)
    {
      for k := 0 to |vs|
        invariant celda.Estado() == old(celda.Estado()).(vecinas := old(celda.vecinas) + vs[..k])
      {
        celda.AddVecina(vs[k]);
        assert vs[..k + 1] == vs[..k] + [vs[k]];
      }
      assert vs[..|vs|] == vs;
    }

    /**
     * One step of `calcular_minas_por_descubrir`, at cell (i, j): count, cache
     * the neighbour list if it is still empty, store the difference.
     */
    method CalcularCelda(i: int, j: int, ghost m: Rejilla)
      requires Forma() && filas >= 2 && columnas >= 2 && 0 <= i < filas && 0 <= j < columnas
      requires Rectangular(m, filas, columnas)
      requires forall a, b | 0 <= a < filas && 0 <= b < columnas :: MismasBanderasCelda(celdas[a][b].Estado(), m[a][b])
      requires celdas[i][j].Estado() == m[i][j]
      modifies celdas[i][j]
      ensures celdas[i][j].Estado() == RecalcularCelda(m, filas, columnas, i, j)
    {
      var vs := Vecinas(filas, columnas, i, j);
      var celdasVecinasConMina, celdasVecinasMarcadas := ContarVecinas(i, j, m);
      var celda := celdas[i][j];
      var lista := celda.GetCeldasVecinas();
      if lista == [] {
        AgregarVecinas(celda, vs);
      }
      celda.SetMinasPorDescubrir(celdasVecinasConMina - celdasVecinasMarcadas);
    }

    /**
     * One iteration of the walk of `calcular_minas_por_descubrir`: cell
     * (i, j) gets its recount, so the cells match the walk one step further.
     * The walk is stated for any f that recounts row i and keeps flags.
     */
    method CalcularSiguiente(i: nat, j: nat, ghost m0: Rejilla, ghost f: (int, int) --> EstadoCelda, ghost parcial: Rejilla)
      returns (ghost siguiente: Rejilla)
      requires Forma() && filas >= 2 && columnas >= 2 && i < filas && j < columnas
      requires Rectangular(m0, filas, columnas)
      requires EsRecuento(m0, f, filas, columnas)
      requires parcial == Parcial(m0, f, filas, columnas, i, j)
      requires forall a, b | 0 <= a < filas && 0 <= b < columnas :: celdas[a][b].Estado() == parcial[a][b]
      modifies celdas[i][j]
      ensures siguiente == Parcial(m0, f, filas, columnas, i, j + 1)
      ensures forall a, b | 0 <= a < filas && 0 <= b < columnas :: celdas[a][b].Estado() == siguiente[a][b]
    {
      ParcialBanderas(m0, f, filas, columnas, i, j);
      ParcialEnCelda(m0, f, filas, columnas, i, j, i, j);
      label Antes:
      CalcularCelda(i, j, m0);
      siguiente := parcial[i := parcial[i][j := celdas[i][j].Estado()]];
      forall a, b | 0 <= a < filas && 0 <= b < columnas
        ensures celdas[a][b].Estado() == siguiente[a][b]
      {
        if (a, b) != (i, j) {
          assert celdas[a][b] != celdas[i][j];
          assert celdas[a][b].Estado() == old@Antes(celdas[a][b].Estado());
        }
      }
    }

    /** One row of the walk: every cell of row i, left to right. */
    method CalcularFila(i: nat, ghost m0: Rejilla, ghost f: (int, int) --> EstadoCelda, ghost parcial: Rejilla)
      returns (ghost siguiente: Rejilla)
      requires Forma() && filas >= 2 && columnas >= 2 && i < filas
      requires Rectangular(m0, filas, columnas)
      requires EsRecuento(m0, f, filas, columnas)
      requires parcial == Parcial(m0, f, filas, columnas, i, 0)
      requires forall a, b | 0 <= a < filas && 0 <= b < columnas :: celdas[a][b].Estado() == parcial[a][b]
      modifies Repr
      ensures siguiente == Parcial(m0, f, filas, columnas, i + 1, 0)
      ensures forall a, b | 0 <= a < filas && 0 <= b < columnas :: celdas[a][b].Estado() == siguiente[a][b]
    {
      siguiente := parcial;
      for j := 0 to columnas
        invariant siguiente == Parcial(m0, f, filas, columnas, i, j)
        invariant forall a, b | 0 <= a < filas && 0 <= b < columnas :: celdas[a][b].Estado() == siguiente[a][b]
      {
        siguiente := CalcularSiguiente(i, j, m0, f, siguiente);
      }
    }

    /** The walk over every row: afterwards the cells hold the whole walk Parcial(m0, f, ...) for a recount f. */
    method RecorrerFilas(ghost m0: Rejilla, ghost f: (int, int) --> EstadoCelda)
      requires Forma() && filas >= 2 && columnas >= 2 && Rectangular(m0, filas, columnas)
      requires EsRecuento(m0, f, filas, columnas)
      requires forall a, b | 0 <= a < filas && 0 <= b < columnas :: celdas[a][b].Estado() == m0[a][b]
      modifies Repr
      ensures forall a, b | 0 <= a < filas && 0 <= b < columnas ::
                celdas[a][b].Estado() == Parcial(m0, f, filas, columnas, filas, 0)[a][b]
    {
      ghost var parcial := m0;
      for i := 0 to filas
        invariant parcial == Parcial(m0, f, filas, columnas, i, 0)
        invariant forall a, b | 0 <= a < filas && 0 <= b < columnas :: celdas[a][b].Estado() == parcial[a][b]
      {
        parcial := CalcularFila(i, m0, f, parcial);
      }
    }

    /** The walk with the recount of m0 itself: afterwards the cells hold Recalcular(m0). */
    method RecalcularCeldas(ghost m0: Rejilla)
      requires Forma() && filas >= 2 && columnas >= 2 && Rectangular(m0, filas, columnas)
      requires forall a, b | 0 <= a < filas && 0 <= b < columnas :: celdas[a][b].Estado() == m0[a][b]
      modifies Repr
      ensures forall a, b | 0 <= a < filas && 0 <= b < columnas ::
                celdas[a][b].Estado() == Recalcular(m0, filas, columnas)[a][b]
    {
      RecuentoEsRecuento(m0, filas, columnas);
      RecorrerFilas(m0, Recuento(m0, filas, columnas));
    }

    /**
     * `calcular_minas_por_descubrir`: every cell, row by row, gets its count
     * of neighbours with a mine minus marked neighbours, and its neighbour
     * list if it had none.
     */
    method CalcularMinasPorDescubrir()
      requires Valid() && filas >= 2 && columnas >= 2
      modifies this, Repr
      ensures Valid() && marcadas == old(marcadas)
      ensures Modelo == Recalcular(old(Modelo), filas, columnas)
    {
      ghost var r := Recalcular(Modelo, filas, columnas);
      ContarBanderas(Modelo, r, Marca);
      RecalcularCeldas(Modelo);
      Modelo := r;
    }

    /**
     * Toggles the mark of one cell (`marcar`) and keeps the counter equal to
     * the number of marked cells: one more on marking, one fewer on unmarking.
     */
    method MarcarCelda(fila: nat, columna: nat)
      requires Valid() && fila < filas && columna < columnas
      modifies this, celdas[fila][columna]
      ensures Valid()
      ensures var c := old(Modelo)[fila][columna];
              Modelo == old(Modelo)[fila := old(Modelo)[fila][columna := c.(marcada := !c.marcada)]]
      ensures marcadas == if old(Modelo)[fila][columna].marcada then old(marcadas) - 1 else old(marcadas) + 1
    {
      var celda := celdas[fila][columna];
      var estaba := celda.IsMarcada();
      celda.Marcar();
      marcadas := if estaba then marcadas - 1 else marcadas + 1;
      ContarActualizar(Modelo, fila, columna, celda.Estado(), Marca);
      Modelo := Modelo[fila := Modelo[fila][columna := celda.Estado()]];
      assert Refleja() by {
        forall a, b | 0 <= a < filas && 0 <= b < columnas ensures celdas[a][b].Estado() == Modelo[a][b] {
          if (a, b) != (fila, columna) {
            assert celdas[a][b] != celda;
          }
        }
      }
    }

    /** Opens one cell (`abrir`); flags of every other cell, and the counter, stay as they were. */
    method AbrirCelda(fila: nat, columna: nat)
      requires Valid() && fila < filas && columna < columnas
      modifies this, celdas[fila][columna]
      ensures Valid() && marcadas == old(marcadas)
      ensures Modelo == old(Modelo)[fila := old(Modelo)[fila][columna := old(Modelo)[fila][columna].(abierta := true)]]
    {
      var celda := celdas[fila][columna];
      celda.Abrir();
      ContarActualizar(Modelo, fila, columna, celda.Estado(), Marca);
      Modelo := Modelo[fila := Modelo[fila][columna := celda.Estado()]];
      assert Refleja() by {
        forall a, b | 0 <= a < filas && 0 <= b < columnas ensures celdas[a][b].Estado() == Modelo[a][b] {
          if (a, b) != (fila, columna) {
            assert celdas[a][b] != celda;
          }
        }
      }
    }

    /**
     * `hacer_jugada` on a token that validation accepted: '!' toggles the
     * mark (and the counter), '*' opens a mine-free cell or reports the end
     * of the game, leaving the mined cell closed.
     */
    method HacerJugada(jugada: string) returns (fin: bool)
      requires Valid()
      requires Decodificar(jugada, filas, columnas).Some?
      modifies this, Repr
      ensures Valid()
      ensures var e := Aplicar(Situacion(old(Modelo), old(marcadas)), filas, columnas,
                               Decodificar(jugada, filas, columnas).value);
              Modelo == e.situacion.rejilla && marcadas == e.situacion.marcadas && fin == e.fin
    {
      ghost var d := Decodificar(jugada, filas, columnas).value;
      var fila := DicFilas(jugada[0]).value;
      var columna := DicColumnas(jugada[1]).value;
      var accion := jugada[2];
      assert fila == d.fila && columna == d.columna;
      assert accion == '!' <==> d.accion == Marcar;
      fin := false;

      if accion == '!' {
        MarcarCelda(fila, columna);
      } else if accion == '*' {
        var hayMina := celdas[fila][columna].HayMina();
        assert hayMina == Modelo[fila][columna].mina;
        if !hayMina {
          AbrirCelda(fila, columna);
        } else if hayMina {
          fin := true;
        }
      }
    }

    /**
     * One turn of the token loop of `jugar`: validate the token against the
     * current board; if it is accepted, apply it and recount. A rejected
     * token leaves the board as it was.
     */
    method JugarSubjugada(jugada: string, minas: int) returns (fin: bool, error: Option<ErrorJugada>)
      requires Valid() && filas >= 2 && columnas >= 2
      modifies this, Repr
      ensures Valid()
      ensures var v := ValidarJugada(jugada, old(Modelo), filas, columnas, old(marcadas), minas);
              if v.Invalida? then
                error == Some(v.error) && !fin && Modelo == old(Modelo) && marcadas == old(marcadas)
              else
                var e := Paso(Situacion(old(Modelo), old(marcadas)), filas, columnas, v.jugada);
                error.None? && fin == e.fin && Modelo == e.situacion.rejilla && marcadas == e.situacion.marcadas
    {
      var v := ValidarJugada(jugada, Instantanea(), filas, columnas, marcadas, minas);
      if v.Invalida? {
        return false, Some(v.error);
      }
      error := None;
      assert Decodificar(jugada, filas, columnas) == Some(v.jugada);
      ghost var a := Aplicar(Situacion(Modelo, marcadas), filas, columnas, v.jugada);
      fin := HacerJugada(jugada);
      assert fin == a.fin && Modelo == a.situacion.rejilla && marcadas == a.situacion.marcadas;
      PasoDesplegar(Situacion(old(Modelo), old(marcadas)), filas, columnas, v.jugada);
      CalcularMinasPorDescubrir();
    }

    /**
     * The token loop of `jugar` for one submission: split it into tokens,
     * then validate and apply them in order, recounting after each applied
     * one, until a token is rejected, the game ends, or the tokens run out.
     */
    method Jugar(jugada: string, minas: int) returns (fin: bool, error: Option<ErrorJugada>)
      requires Valid() && filas >= 2 && columnas >= 2
      modifies this, Repr
      ensures Valid()
      ensures var r := Procesar(Situacion(old(Modelo), old(marcadas)), filas, columnas, minas, Trozos(jugada));
              Modelo == r.situacion.rejilla && marcadas == r.situacion.marcadas && fin == r.fin && error == r.error
    {
      ghost var s0 := Situacion(Modelo, marcadas);
      var lista := DividirEnSubjugadas(jugada);
      fin := false;
      error := None;
      var i := 0;
      while i < |lista|
        invariant Valid()
        invariant 0 <= i <= |lista|
        invariant var p := Procesar(s0, filas, columnas, minas, lista[..i]);
                  !p.fin && p.error.None? && p.situacion == Situacion(Modelo, marcadas)
        invariant !fin && error.None?
        decreases |lista| - i
      {
        fin, error := JugarSubjugada(lista[i], minas);
        if error.Some? {
          ProcesarPrefijoInvalido(s0, filas, columnas, minas, lista, i);
          return;
        }
        if fin {
          ProcesarPrefijoFin(s0, filas, columnas, minas, lista, i);
          return;
        }
        ProcesarPrefijoSigue(s0, filas, columnas, minas, lista, i);
        i := i + 1;
      }
      assert lista[..i] == lista;
    }
  }

  /**
   * The set-up of `jugar`: a new board of the given size with `minas` mines,
   * followed by a first recount, so every cell starts closed, unmarked and
   * with its count current.
   */
  method NuevaPartida(filas: nat, columnas: nat, minas: nat) returns (t: Tablero)
    requires filas >= 2 && columnas >= 2 && minas <= filas * columnas
    ensures t.Valid() && fresh(t) && fresh(t.Repr)
    ensures t.filas == filas && t.columnas == columnas && t.marcadas == 0
    ensures Contar(t.Modelo, Mina) == minas
    ensures CuentasAlDia(t.Modelo, filas, columnas)
    ensures forall i, j | 0 <= i < filas && 0 <= j < columnas :: !t.Modelo[i][j].abierta && !t.Modelo[i][j].marcada
  {
    t := new Tablero(filas, columnas, minas);
    ghost var m := t.Modelo;
    t.CalcularMinasPorDescubrir();
    RecalcularAlDia(m, filas, columnas);
    ContarBanderas(m, t.Modelo, Mina);
  }
}

=== FILE: topologia.dfy ===
/**
 * Hexagonal topology of the board, as fixed by the case table of
 * `calcular_minas_por_descubrir`. The board is a rectangular array of
 * rows; even rows are drawn shifted half a cell to the right, so an even
 * row touches columns j and j+1 of the rows above and below, and an odd
 * row touches columns j-1 and j.
 */
module Topologia {

  /** A (row, column) index pair. */
  type Pos = (int, int)

  predicate EnTablero(filas: int, columnas: int, p: Pos)
  {
    0 <= p.0 < filas && 0 <= p.1 < columnas
  }

  /** Hex adjacency by row parity, clipped to the board: the reference relation. */
  predicate Adyacente(filas: int, columnas: int, p: Pos, q: Pos)
  {
    && EnTablero(filas, columnas, p)
    && EnTablero(filas, columnas, q)
    && (|| (q.0 == p.0 && (q.1 == p.1 - 1 || q.1 == p.1 + 1))
        || ((q.0 == p.0 - 1 || q.0 == p.0 + 1) &&
            if p.0 % 2 == 0 then q.1 == p.1 || q.1 == p.1 + 1
            else q.1 == p.1 - 1 || q.1 == p.1))
  }

  predicate Distintos(ps: seq<Pos>)
  {
    forall a, b | 0 <= a < b < |ps| :: ps[a] != ps[b]
  }

  /**
   * The neighbour list exactly as the case table writes it, in the order the
   * source visits the cells (top edge, bottom edge, left edge, right edge,
   * interior; each split by row parity and corner).
   */
  function VecinasComoEscrito(filas: int, columnas: int, i: int, j: int): (r: seq<Pos>)
    requires filas >= 2 && columnas >= 2
    requires 0 <= i < filas && 0 <= j < columnas
    ensures 2 <= |r| <= 6
    ensures Distintos(r)
    ensures forall q | q in r :: EnTablero(filas, columnas, q) && q != (i, j)
  {
    if i == 0 then
      if j == 0 then [(i, j + 1), (i + 1, j), (i + 1, j + 1)]
      else if j == columnas - 1 then [(i, j - 1), (i + 1, j), (i + 1, j - 1)]
      else [(i, j - 1), (i, j + 1), (i + 1, j), (i + 1, j + 1)]
    else if i == filas - 1 then
      if i % 2 == 0 then
        if j == 0 then [(i, j + 1), (i - 1, j), (i - 1, j + 1)]
        else if j == columnas - 1 then [(i, j - 1), (i - 1, j)]
        else [(i, j - 1), (i, j + 1), (i - 1, j), (i - 1, j + 1)]
      else
        if j == 0 then [(i, j + 1), (i - 1, j)]
        else if j == columnas - 1 then [(i, j - 1), (i - 1, j), (i - 1, j - 1)]
        else [(i, j - 1), (i, j + 1), (i - 1, j - 1), (i - 1, j)]
    else if j == 0 then
      if i % 2 == 0 then [(i - 1, j), (i - 1, j + 1), (i, j + 1), (i + 1, j), (i + 1, j + 1)]
      else [(i, j + 1), (i - 1, j), (i + 1, j)]
    else if j == columnas - 1 then
      if i % 2 == 0 then [(i, j - 1), (i - 1, j), (i + 1, j)]
      else [(i - 1, j - 1), (i - 1, j), (i, j - 1), (i + 1, j - 1), (i + 1, j)]
    else if i % 2 == 0 then
      [(i - 1, j), (i - 1, j + 1), (i, j - 1), (i, j + 1), (i + 1, j), (i + 1, j + 1)]
    else
      [(i - 1, j - 1), (i - 1, j), (i, j - 1), (i, j + 1), (i + 1, j - 1), (i + 1, j)]
  }

  /**
   * The neighbour list the rest of the model uses: the case table with the
   * top-right corner corrected to the even-row rule, which drops (1, columnas-2).
   */
  function Vecinas(filas: int, columnas: int, i: int, j: int): (r: seq<Pos>)
    requires filas >= 2 && columnas >= 2
    requires 0 <= i < filas && 0 <= j < columnas
    ensures 2 <= |r| <= 6
    ensures Distintos(r)
    ensures forall q | q in r :: EnTablero(filas, columnas, q) && q != (i, j)
    ensures 0 < i < filas - 1 && 0 < j < columnas - 1 ==> |r| == 6
  {
    if i == 0 && j == columnas - 1 then [(i, j - 1), (i + 1, j)]
    else VecinasComoEscrito(filas, columnas, i, j)
  }

  /** The listed neighbours are exactly the hex-adjacent cells, both ways. */
  lemma VecinasSonAdyacentes(filas: int, columnas: int, i: int, j: int, q: Pos)
    requires filas >= 2 && columnas >= 2
    requires 0 <= i < filas && 0 <= j < columnas
    ensures q in Vecinas(filas, columnas, i, j) <==> Adyacente(filas, columnas, (i, j), q)
  {
  }

  /** Hex adjacency is symmetric. */
  lemma AdyacenteSimetrico(filas: int, columnas: int, p: Pos, q: Pos)
    requires Adyacente(filas, columnas, p, q)
    ensures Adyacente(filas, columnas, q, p)
  {
    if q.0 != p.0 {
      if p.0 % 2 == 0 {
        assert q.0 % 2 == 1;
      } else {
        assert q.0 % 2 == 0;
      }
    }
  }

  /** Corrected neighbour lists are symmetric: q lists p whenever p lists q. */
  lemma VecinasSimetricas(filas: int, columnas: int, p: Pos, q: Pos)
    requires filas >= 2 && columnas >= 2
    requires EnTablero(filas, columnas, p) && EnTablero(filas, columnas, q)
    ensures q in Vecinas(filas, columnas, p.0, p.1) <==> p in Vecinas(filas, columnas, q.0, q.1)
  {
    VecinasSonAdyacentes(filas, columnas, p.0, p.1, q);
    VecinasSonAdyacentes(filas, columnas, q.0, q.1, p);
    if Adyacente(filas, columnas, p, q) {
      AdyacenteSimetrico(filas, columnas, p, q);
    }
    if Adyacente(filas, columnas, q, p) {
      AdyacenteSimetrico(filas, columnas, q, p);
    }
  }

  /**
   * The case table as written agrees with the corrected lists everywhere but
   * at the top-right corner, where it adds (1, columnas-2), a cell that is not
   * hex-adjacent to the corner and that does not list the corner back.
   */
  lemma ComoEscritoDifiereEnEsquina(filas: int, columnas: int, i: int, j: int)
    requires filas >= 2 && columnas >= 2
    requires 0 <= i < filas && 0 <= j < columnas
    ensures (i, j) != (0, columnas - 1) ==>
              VecinasComoEscrito(filas, columnas, i, j) == Vecinas(filas, columnas, i, j)
    ensures (i, j) == (0, columnas - 1) ==>
              VecinasComoEscrito(filas, columnas, i, j) == Vecinas(filas, columnas, i, j) + [(1, columnas - 2)]
  {
  }

  /** Counterexample: the as-written neighbour relation is not symmetric. */
  lemma ComoEscritoNoSimetrico(filas: int, columnas: int)
    requires filas >= 2 && columnas >= 2
    ensures (1, columnas - 2) in VecinasComoEscrito(filas, columnas, 0, columnas - 1)
    ensures !Adyacente(filas, columnas, (0, columnas - 1), (1, columnas - 2))
    ensures (0, columnas - 1) !in VecinasComoEscrito(filas, columnas, 1, columnas - 2)
  {
  }
}
